=== FILE: README.md ===
# Quiz bot test lifecycle and grading, in Dafny

This project models the core of a Telegram quiz bot without its Telegram or SQLite I/O. In the bot:

- An operator creates a test through a short wizard: a title, a question count of 1..300 and a duration of 1..168 hours.
- The operator stores an answer key and starts the test. Starting opens a window from now to now plus the duration.
- Participants register, then send `TestID*answers`.
- Each submission passes a fixed sequence of checks. The first failing check decides the reply. A submission that passes every check is normalised, graded and stored exactly once.
- A periodic sweep ends every active test whose end time has passed. It sends each admin a leaderboard and a top-three summary.

The model is functional:

- The database is a `Store` value. Every handler is a function from a store, and the message or button it receives, to a new store and a reply.
- Test and user ids are the 1-based positions of the rows in `Store.tests` and `Store.users`, as the autoincrement keys are; rows are never deleted.
- Submissions are kept in arrival order.
- Time is integer seconds. A test's window ends at `start + 3600 * duration_hours`.
- A percentage is an integer number of hundredths of a percent: 66.67 % is `6667`.
- A Python exception that ends a handler becomes an explicit reply with the store unchanged. Examples: a `KeyError` on missing conversation data, `int()` raising `ValueError`, and subscripting a missing test.

Modules:

- `Wrappers`: `Option`.
- `Text`: ASCII character classes, `strip`, `split`, decimal rendering and Python's `int()`.
- `Sorting`: a stable insertion sort, standing for SQL `ORDER BY`.
- `Grader`: `normalize_answers` and `grade_submission`.
- `Config`: the `ADMIN_USER_IDS` parser.
- `Common`: `is_admin`, subscription status and conversation states.
- `Queries`: the store and its queries.
- `Exporter`: leaderboard rows and `str(timedelta)`.
- `Jobs`: the expiry sweep.
- `Admin`: the operator handlers.
- `Participant`: registration and submission.

Where the design description and the code differ, the model follows the code:

- `start_test_callback` checks only that a key exists. It does not check the status, so an ended test can be started again (`Admin.StartIgnoresStatus`).
- `receive_answer_key` does not check the status either.
- `end_test_db` is unconditional, and ending is idempotent.
- Duplicate submissions are caught by a lookup before the insert. The insert's own uniqueness failure is modelled in `Queries.CreateSubmission`. Handlers run one at a time, so in the model that failure is never reached (`Participant.HandleSubmission` never replies `DatabaseError`).
- `normalize_answers` tests whether the input has a digit, then computes the same expression in both branches. The model keeps both branches and proves they give the same result (`Grader.NormalizeIsLettersOfUpper`).

## Model

| member | source | states |
|---|---|---|
| Text.ParseInt | bot_handlers/admin.py:93 | Python's `int()` on ASCII text, with surrounding whitespace ignored: a value comes back iff the stripped text is digits with single underscores between them, optionally after one `+` or `-` |
| Text.ParseStripped | bot_handlers/admin.py:93 | on stripped text, a value comes back iff the text is an optionally signed integer body; plain digits give their decimal value |
| Text.ParseSigned | bot_handlers/admin.py:93 | a `+` before a run of digits is ignored and a `-` negates its value |
| Text.ParseIgnoresUnderscore | bot_handlers/admin.py:93 | an underscore between digits is ignored: digits, `_`, then an integer body parse to the same value as the text without that `_`; with `Text.ParseDigits` this fixes every unsigned value |
| Text.DropUnderscoresConcat | bot_handlers/admin.py:93 | dropping underscores distributes over concatenation |
| Text.UnderscoreBody | bot_handlers/admin.py:93 | digits, one `_`, then an integer body form an integer body, and so does the same text without the `_` |
| Text.DropSkipsUnderscore | bot_handlers/admin.py:93 | dropping underscores from digits, `_`, body gives the same digits as from digits, body |
| Text.ParseUnpadded | bot_handlers/admin.py:93 | text without surrounding whitespace goes to the sign-and-body step unchanged |
| Text.ParsePlusFive | bot_handlers/admin.py:93 | "+5" parses to 5 |
| Text.ParseMinusTwelve | bot_handlers/admin.py:93 | "-12" parses to -12 |
| Text.ParseUnderscore | bot_handlers/admin.py:93 | "1_0" parses to 10 |
| Text.ParseRejectsDoubleUnderscore | bot_handlers/admin.py:93 | "1__0" makes `int()` fail |
| Text.ParseRejectsLetter | bot_handlers/admin.py:93 | "12a" makes `int()` fail |
| Text.ParseRejectsInnerSpace | bot_handlers/admin.py:93 | "1 2" makes `int()` fail: only surrounding whitespace is stripped |
| Text.ParseDecimal | bot_handlers/admin.py:93 | `int(str(n)) == n` for every natural number |
| Text.ParseDigits | bot_handlers/admin.py:106 | a plain run of digits parses to its decimal value |
| Text.ParseNeedsDigit | bot_handlers/user.py:162 | text with no digit at all makes `int()` fail |
| Text.SplitFirst | bot_handlers/user.py:149-153 | `split('*', 1)`: no part when the separator is absent; otherwise the text is the head, the separator and the tail, and the head has no separator |
| Text.JoinSplit | config.py:11 | joining the pieces of `split(',')` with ',' gives the text back |
| Text.SplitJoin | config.py:11 | splitting joined separator-free pieces gives the pieces back |
| Text.DecimalRoundTrip | services/exporter.py:4 | the decimal rendering of a number reads back as that number |
| Sorting.Sort | db/queries.py:143 | `ORDER BY` keeps exactly the rows it was given: same length, same multiset |
| Sorting.SortSorted | db/queries.py:143 | for a total preorder, the sorted rows are in order |
| Sorting.SortKeepsSorted | db/queries.py:143 | rows already in order are left exactly as they are |
| Sorting.SortIsStable | db/queries.py:143 | the sort is stable: the rows tied with any given row come out in the order they went in |
| Sorting.InsertKeepsTies | db/queries.py:143 | inserting a row puts it after every row it ties with, so the tied rows keep their order |
| Sorting.PermutationKeepsDistinct | db/queries.py:103-109 | reordering a list without repeats gives a list without repeats |
| Sorting.TakeKeepsTheFirst | db/queries.py:103-109 | `LIMIT n` on sorted rows drops only rows that no kept row is behind |
| Sorting.SortIdempotent | db/queries.py:143 | sorting twice is sorting once |
| Sorting.Take | db/queries.py:106 | `LIMIT n` keeps the first `min(n, length)` rows in order |
| Grader.NormalizeAnswers | services/grader.py:3-42 | the result is never longer than the input and holds only upper-case letters |
| Grader.NormalizeIsLettersOfUpper | services/grader.py:15-42 | normalising keeps the letters of the upper-cased input, whether or not it has a digit |
| Grader.LettersFromInput | services/grader.py:39-42 | every kept character occurs in the input |
| Grader.NormalizeConcat | services/grader.py:39-42 | normalisation works character by character: `n(a + b) == n(a) + n(b)`, which keeps left-to-right order |
| Grader.NormalizeChar | services/grader.py:15-42 | one character gives its upper case when it is a letter and nothing otherwise |
| Grader.NormalizeIgnoresNonLetter | services/grader.py:39-42 | inserting a non-letter anywhere does not change the result |
| Grader.NormalizeLength | services/grader.py:39-42 | the length of the result is the number of letter positions in the input |
| Grader.NormalizeIdempotent | services/grader.py:39-42 | normalising a normalised answer changes nothing |
| Grader.NormalizeExampleLower | tests/test_grader.py:6 | "abc" gives "ABC" |
| Grader.NormalizeExampleSpaces | tests/test_grader.py:7 | "A B C" gives "ABC" |
| Grader.NormalizeExampleCommas | tests/test_grader.py:8 | "A,B,C" gives "ABC" |
| Grader.NormalizeExampleIndexed | tests/test_grader.py:11 | "1A 2B 3C" gives "ABC" |
| Grader.NormalizeExampleDotted | tests/test_grader.py:12 | "1.A 2.b 3.C" gives "ABC" |
| Grader.NormalizeExampleMultiDigit | tests/test_grader.py:14 | "10A 11B" gives "AB" |
| Grader.MatchCount | services/grader.py:56-60 | the `zip` match count is the number of positions below the shorter length where the two strings agree, so it is at most the length of either string |
| Grader.CountIsPositions | services/grader.py:56-60 | the match count is the number of positions below the shorter length where the two strings agree |
| Grader.RoundHalfEven | services/grader.py:65 | rounding `n / d` to the nearest integer, ties to even |
| Grader.PercentAtMostHundred | services/grader.py:63-65 | a percentage never exceeds 100.00 |
| Grader.GradeSubmission | services/grader.py:44-65 | empty key gives (0, 0, 0); otherwise `correct` is the number of agreeing positions, `correct + wrong == len(key)`, and `percent` is within half a hundredth of `100 * correct / len(key)` and at most 100.00 |
| Grader.GradePerfect | services/grader.py:44-65 | the key graded against itself is all correct at 100.00 |
| Grader.RoundExact | services/grader.py:65 | a whole value rounds to itself |
| Grader.GradeExamples | tests/test_grader.py:16-40 | ("ABCDE","ABCDE") is (5, 0, 100.00), ("ABXDE","ABCDE") is (4, 1, 80.00), ("AB","ABC") is (2, 1, 66.67) |
| Config.IdsOf | config.py:11-14 | an id is in the set iff some comma-separated piece, once stripped, is a non-empty run of digits with that value |
| Config.EmptyEnvNoAdmins | config.py:9-14 | an empty or unset variable gives no admins |
| Config.IdsOfConcat | config.py:11-14 | the ids of two piece lists together are the union of their ids |
| Config.ParseJoined | config.py:11-14 | parsing `a,b` is the union of parsing `a` and parsing `b` |
| Config.ParseOrderAndRepeats | config.py:10-14 | the order of pieces does not matter, and repeated pieces collapse |
| Config.ParseRendered | config.py:11-14 | a comma-joined list of decimal ids parses to exactly the set of those ids |
| Config.LeadingNonDigitNotId | config.py:13 | a piece that starts with a sign or a letter after stripping is dropped |
| Config.DropsSignedAndWords | config.py:11-14 | "-5,abc, 7 " gives exactly {7}, with no error |
| Common.IsAdmin | bot_handlers/common.py:11-12 | a user is an admin iff some piece of the admin list parses to their id |
| Common.IsSubscribed | bot_handlers/common.py:19-36 | 'left' and 'kicked' are not subscribed, any other member status is, and a failed lookup is not |
| Common.StateCode | bot_handlers/common.py:5-9 | the code is 10 exactly for the broadcast state; the other operator states are below 5 and the registration states below 2 |
| Common.StateCodeValues | bot_handlers/common.py:5-9 | the wizard states are 0, 1, 2, 3, 4 in dialogue order, the broadcast state 10, and the registration states 0 and 1 |
| Common.UserStateCodesDistinct | bot_handlers/common.py:7 | the two registration states have different codes |
| Common.AdminStateCodesDistinct | bot_handlers/common.py:6-9 | no two operator states share a code |
| Queries.GetTest | db/queries.py:59-65 | a test exists iff its id is between 1 and the number of tests |
| Queries.UpdateTest | db/queries.py:67-90 | an `UPDATE ... WHERE id = ?` changes only that row, and a missing id changes nothing |
| Queries.CreateTest | db/queries.py:47-57 | a fresh id holds a draft with no key, no window and the given title, count and duration; every other test, user and submission is unchanged |
| Queries.UpdateTestAnswerKey | db/queries.py:67-72 | only the key of that test changes |
| Queries.StartTestDb | db/queries.py:74-83 | only status, start and end of that test change, whatever its previous status |
| Queries.EndTestDb | db/queries.py:85-90 | only the status of that test changes, to ended, with no check of the previous status |
| Queries.EndTestIdempotent | db/queries.py:85-90 | ending twice is ending once |
| Queries.ActiveTestsNeedingEnd | db/queries.py:92-101 | exactly the tests that are active with `end_at <= now`, each once, in id order |
| Queries.GetAllTests | db/queries.py:103-109 | `min(limit, count)` existing ids, each once, newest first; no test left out is newer than one listed |
| Queries.GetUserByTgId | db/queries.py:30-36 | the user row with that Telegram id, or none iff no row has it |
| Queries.UpsertUser | db/queries.py:11-28 | a new Telegram id appends a user; a known one keeps its id and overwrites username and name, but keeps the old region when the new one is absent (`COALESCE`); tests and submissions are unchanged |
| Queries.GetSubmission | db/queries.py:127-133 | a stored submission for that test and user, or none iff there is none |
| Queries.CreateSubmission | db/queries.py:112-125 | the insert succeeds iff no row has the same test and user; on success exactly one row is appended, on failure nothing changes |
| Queries.CreateSubmissionKeepsUnique | db/queries.py:112-125 | the insert keeps (test, user) unique |
| Queries.RanksAheadIsTotalPreorder | db/queries.py:143 | percent descending, then correct descending, then time ascending with NULL first, is total and transitive |
| Queries.JoinedRows | db/queries.py:138-142 | every joined row is a submission of that test joined with its user, and there are no more rows than submissions |
| Queries.Surviving | db/queries.py:138-142 | the submissions kept by the inner join are stored submissions of that test whose user exists |
| Queries.JoinedRowsAreSurvivors | db/queries.py:138-142 | the join is exactly the submissions of that test whose user exists, each joined with its user, every such submission as often as it is stored |
| Queries.SurvivingCounts | db/queries.py:138-142 | the inner join keeps a submission as often as it is stored when it is for that test and its user exists, and drops it otherwise |
| Queries.JoinEachPointwise | db/queries.py:138-142 | each kept submission becomes one row carrying its user's full name and username |
| Queries.JoinKeepsAll | db/queries.py:138-142 | when every submission's user exists, the join has one row per submission of the test |
| Queries.GetTestSubmissions | db/queries.py:135-147 | the rows are the test's joined submissions, as a multiset, sorted by the ranking |
| Queries.TiesKeepArrivalOrder | db/queries.py:143 | rows that tie on the ranking keep the order the join produced them in |
| Queries.RerankingIsStable | db/queries.py:143 | sorting the ranked rows again changes nothing |
| Queries.EmptyStoreValid | db/queries.py:11-147 | the empty database is consistent |
| Queries.CreateTestValid | db/queries.py:47-57 | creating a test keeps the database consistent |
| Queries.EndTestValid | db/queries.py:85-90 | ending a test keeps the database consistent |
| Queries.UpsertUserValid | db/queries.py:11-28 | registering keeps Telegram ids unique and the database consistent |
| Exporter.Pad2 | services/exporter.py:4 | a two-digit field whose value is the number |
| Exporter.FormatTimeTaken | services/exporter.py:3-4 | under a day, the "H:MM:SS" text reads back as the number of seconds |
| Exporter.FormatWithinDay | services/exporter.py:3-4 | under a day there is no day prefix: the text is hours, two-digit minutes and two-digit seconds |
| Exporter.FormatSplitsDays | services/exporter.py:3-4 | any count, negatives included, is the floor day count when not zero ("1 day, ", "2 days, ", "-1 day, ") followed by the clock of the rest of that day, which reads back as the rest (the source raises beyond ±999999999 days; see "## Left out") |
| Exporter.ClockReadsBack | services/exporter.py:4 | hours, two-digit minutes and two-digit seconds read back as their total |
| Exporter.ClockSlices | services/exporter.py:4 | in "H:MM:SS" the hour is everything before the last six characters, the minutes and seconds the two-character fields between and after the colons |
| Exporter.Pad2Unique | services/exporter.py:4 | two digits are the zero-padded rendering of their own value |
| Exporter.ClockDivides | services/exporter.py:4 | hours, minutes and seconds are recovered from their total |
| Exporter.ClockTextOf | services/exporter.py:4 | text that reads as some seconds is the clock of those seconds' hours, minutes and seconds |
| Exporter.ClockIsCanonical | services/exporter.py:3-4 | the reading is one-to-one: text that reads as a count under a day is exactly what the formatter writes for it |
| Exporter.ClockRejectsSixtyMinutes | services/exporter.py:4 | "0:60:00" is not a clock reading |
| Exporter.FormatZero | services/exporter.py:46 | a missing time renders as "0:00:00" |
| Exporter.FormatHourMinuteSecond | services/exporter.py:4 | 3661 seconds renders as "1:01:01" |
| Exporter.UserCell | services/exporter.py:45 | "@username" when the username is present and non-empty, otherwise "N/A" |
| Exporter.GenerateLeaderboardHtml | services/exporter.py:6-67 | the title is in both the page title and the heading; one row per submission in input order, ranked from 1, with name, counts and submission time copied, the user cell from `UserCell` and the time from `format_time_taken`, so a missing time shows "0:00:00" |
| Exporter.LeaderboardAppend | services/exporter.py:43-59 | rows are independent: adding submissions keeps the earlier rows and ranks the new ones after them |
| Jobs.TopThree | scheduler/jobs.py:45-46 | the caption lists the first three ranked rows, or fewer when there are fewer, numbered from 1 |
| Jobs.Deliver | scheduler/jobs.py:48-59 | one delivery attempt per admin in order; a failure for one admin does not stop the others |
| Jobs.MakeReport | scheduler/jobs.py:26-46 | a report carries the test's title and the number of ranked rows; its page is the leaderboard of those rows, its caption their top three, and one delivery attempt goes to each admin |
| Jobs.ReportsFor | scheduler/jobs.py:18-28 | one report per listed test with submissions, in list order; a test with no submissions has none |
| Jobs.ListingIgnoresTests | db/queries.py:135-147 | the ranked listing depends only on users and submissions, so ending tests does not change it |
| Jobs.EndAll | scheduler/jobs.py:18-28 | ending the listed tests one by one ends exactly those tests and produces the reference reports |
| Jobs.ReportsIgnoreEnding | scheduler/jobs.py:23-30 | reports built after each test is ended equal reports built on the database before the sweep |
| Jobs.CheckActiveTests | scheduler/jobs.py:11-59 | expired tests become ended and nothing else changes; the reports are the reference reports for the expired tests |
| Jobs.ReportsExactlyForExpiredWithSubmissions | scheduler/jobs.py:18-28 | a listed test gets a report iff it has submissions |
| Jobs.SweepReportsIff | scheduler/jobs.py:16-28 | a sweep reports a test iff the test was active, past its end and had submissions |
| Jobs.SweepLeavesNothingExpired | scheduler/jobs.py:16-23 | after a sweep at `now`, no test is active with `end_at <= now` |
| Jobs.NoneExpiredUpTo | db/queries.py:92-101 | with no expired test, the expiry query is empty |
| Jobs.SweepIdempotent | scheduler/jobs.py:16-23 | a second sweep at the same time changes nothing and reports nothing |
| Jobs.EndedValid | scheduler/jobs.py:23 | ending any set of tests keeps the database consistent |
| Jobs.SweepValid | scheduler/jobs.py:11-59 | a sweep keeps the database consistent |
| Jobs.DeliveriesPerAdmin | scheduler/jobs.py:45-59 | every report is attempted for every admin, and its summary has `min(3, total)` lines |
| Jobs.ReportShape | scheduler/jobs.py:26-59 | every report belongs to an existing test; its deliveries and top three come from that test's ranked rows |
| Admin.ReceiveTitle | bot_handlers/admin.py:82-88 | "/skip" stores "Nomsiz Test"; other text is stored verbatim; only the title changes |
| Admin.ReceiveQuestions | bot_handlers/admin.py:90-101 | the wizard moves on iff the text parses to 1..300, storing it; otherwise it asks again and stores nothing |
| Admin.ReceiveDuration | bot_handlers/admin.py:103-126 | a duration outside 1..168 or not a number asks again and stores nothing; an accepted one is stored, and the wizard moves to confirmation iff the title and count are already collected; without them the handler fails after storing the duration |
| Admin.QuestionCountAccepted | bot_handlers/admin.py:90-101 | a decimal count is accepted iff it is in 1..300 |
| Admin.DurationAccepted | bot_handlers/admin.py:103-126 | a decimal duration is accepted iff it is in 1..168 |
| Admin.NonNumericRejected | bot_handlers/admin.py:92-101 | text without a digit is refused by both steps with nothing stored |
| Admin.ConfirmCreation | bot_handlers/admin.py:128-152 | "create_cancel" creates nothing; any other action creates exactly one draft from the collected answers; missing answers create nothing |
| Admin.WizardCreatesDraft | bot_handlers/admin.py:82-152 | a full wizard run with valid answers creates a draft with that count and duration |
| Admin.SetKeyStart | bot_handlers/admin.py:156-174 | for an existing test, remembers its id and question count and asks for the key; otherwise ends the conversation |
| Admin.SetKeyStartMatches | bot_handlers/admin.py:166-167 | the remembered count is the test's question count |
| Admin.ReceiveAnswerKey | bot_handlers/admin.py:176-199 | a wrong length asks again, naming both lengths, with nothing changed; a right length with a remembered test stores the normalised key for that test; missing conversation data makes the handler fail with nothing changed |
| Admin.ReceiveAnswerKeyValid | bot_handlers/admin.py:176-199 | a stored key always has the test's question count |
| Admin.StartTestCallback | bot_handlers/admin.py:253-267 | refused with nothing changed when there is no key; otherwise the window is now to now plus the duration |
| Admin.ActivationNeedsKey | bot_handlers/admin.py:258-260 | a test without a key cannot be started |
| Admin.StartIgnoresStatus | bot_handlers/admin.py:253-265 | an ended test with a key becomes active again |
| Admin.StartTestValid | bot_handlers/admin.py:253-267 | starting keeps the database consistent |
| Admin.EndTestCallback | bot_handlers/admin.py:269-276 | the test becomes ended with every other field and every other test unchanged; users and submissions are untouched; a missing test changes nothing |
| Admin.EndTestCallbackValid | bot_handlers/admin.py:269-276 | ending keeps the database consistent |
| Admin.EndTestCallbackIdempotent | bot_handlers/admin.py:269-276 | ending twice is ending once |
| Admin.ViewTest | bot_handlers/admin.py:221-250 | set-key only for drafts, start only for drafts with a key, end only for active tests, results and back always; no view for a missing test |
| Admin.StartButtonMeansFullKey | bot_handlers/admin.py:239-241 | in a consistent database, a start button means the key has one answer per question |
| Admin.TestList | bot_handlers/admin.py:203-219 | `min(limit, count)` existing tests, each once, newest first, each shown with its own status, title and question count; no test left out is newer than one shown |
| Admin.ManageTests | bot_handlers/admin.py:203-219 | `min(10, count)` tests, each once, newest first, with no newer test left out; empty iff there are no tests |
| Admin.LeaderboardMenu | bot_handlers/admin.py:279-295 | `min(20, count)` tests, each once, newest first, with no newer test left out; empty iff there are no tests |
| Admin.SmallListShowsEveryTest | bot_handlers/admin.py:205 | with room for all, the list shows every test exactly once |
| Admin.SendLeaderboard | bot_handlers/admin.py:297-321 | "no answers" iff the test has no ranked rows; otherwise the leaderboard page of those rows under the test's title, and the participant count; rows for a missing test make the handler fail |
| Admin.SendLeaderboardNeverCrashes | bot_handlers/admin.py:300-310 | in a consistent database a test with answers exists, so the handler never fails |
| Participant.RegionChoice | bot_handlers/user.py:106-108 | the skip button stores no region; any other text is stored verbatim |
| Participant.RegisterRegion | bot_handlers/user.py:105-123 | without a remembered name the handler fails and nothing changes; otherwise the user is stored with that name and username, and the region is replaced, kept or left empty as chosen |
| Participant.RegisterRegionValid | bot_handlers/user.py:105-123 | registration keeps the database consistent |
| Participant.NewSubmission | bot_handlers/user.py:202-209 | the stored row has the counts from `grade_submission`, the normalised answers, start and submission time now, and zero seconds taken |
| Participant.Admit | bot_handlers/user.py:163-221 | accepted iff the test exists, is active, has a key, is within its window, the answer count matches and there is no earlier submission; then one graded row is appended, otherwise nothing changes; the first failing check names the reply |
| Participant.HandleSubmission | bot_handlers/user.py:146-221 | no '*' after stripping means no reply; an unregistered sender is asked to /start; an id too wide for SQLite's 64-bit INTEGER makes `get_test` raise, with nothing changed; acceptance means all checks pass and exactly one row is appended; nothing else changes the database |
| Participant.SubmissionReachesAdmit | bot_handlers/user.py:153-163 | a registered sender with a parsable id that fits SQLite's INTEGER reaches the test checks with the text after the first '*' |
| Participant.BadIdRefused | bot_handlers/user.py:162 | an id that does not parse stops the handler with nothing changed |
| Participant.WideIdRefused | bot_handlers/user.py:162-163 | an id that parses but does not fit a signed 64-bit integer stops the handler at the lookup with nothing changed |
| Participant.SqliteIntegerBound | db/queries.py:62 | the bindable range is signed 64-bit: `2^63 - 1` fits, and every decimal id from `2^63` up parses but does not fit |
| Participant.AcceptedIff | bot_handlers/user.py:146-209 | a submission is accepted iff the sender is registered, the id parses and fits SQLite's INTEGER, and every test check passes; the grade is `grade_submission`'s |
| Participant.WindowBoundary | bot_handlers/user.py:177-185 | a submission at exactly `end_at` is in time, and one a second later is too late |
| Participant.DuplicateRefused | bot_handlers/user.py:197-200 | a second submission for the same test and user is refused with nothing changed |
| Participant.ResubmissionRefused | bot_handlers/user.py:197-209 | after one accepted submission, any later one for the same test is refused |
| Participant.AdmitValid | bot_handlers/user.py:163-221 | in a consistent database an active test always has a key; an accepted grade covers all its questions; the database stays consistent |
| Participant.HandleSubmissionValid | bot_handlers/user.py:146-221 | a submission keeps the database consistent and never meets an active test without a key |

## Left out

- Telegram I/O is not modelled: replies, message edits, keyboards, `send_document`, `BytesIO` and file names (including the `%H%M` stamp). What a handler sends is reduced to its reply value.
- The broadcast feature, `admin_stats`, `/start`, the subscription check flow, `register_name`, static menus and `get_all_users` are not modelled. They are Telegram plumbing around the core.
- `main.py` is not part of this model. Its handler wiring and message filter are left out, so `handle_submission` is modelled on any text, and an unparsable test id is an explicit `BadTestId` reply. The sweep's 60-second period is left out too.
- `db/init_db.py` is not part of this model. Its schema is reflected only in `Queries.Valid`: unique Telegram ids, unique (test, user) submissions, and existing referenced rows.
- SQLite mechanics are abstracted: connections, commits and `lastrowid`. `created_at` and `submitted_at` defaults are the `now` parameter.
- The expiry query has no `ORDER BY`, so the order of its rows, and of a sweep's reports, is not promised by the source. The model returns ids in increasing order, the order a full scan of the table gives.
- Ties that `ORDER BY` leaves unordered are resolved by arrival order (`Queries.TiesKeepArrivalOrder`). SQLite does not promise any order for such ties.
- Clock reads are the `now` parameter. The string/datetime double handling of `end_at` and timezones are left out.
- Queries.GetTest: binding an id wider than SQLite's signed 64-bit INTEGER raises `OverflowError`. This is modelled where a typed id reaches the lookup (`Participant.HandleSubmission`). The operator handlers pass ids taken from the bot's own buttons, which are stored ids, so they never carry one.
- Concurrency is left out: each handler and each sweep is one atomic step. So the insert's uniqueness failure after a passed lookup is never reached.
- Only ASCII characters are modelled. Python's `isalpha`, `isdigit`, `isspace` and `upper` also act on other Unicode characters.
- The parts of `config.py` other than the admin id parser are not modelled: environment loading, database URL rewriting and logging.
- HTML markup, CSS and caption wording are left out. Only the page title, heading, row cells and caption data are modelled.
- Logging of failed deliveries is left out. A failed delivery is a `Delivery(admin, false)` entry. Which deliveries fail is a parameter.
- The admin set is iterated as the sequence `admins` in a given order. Python's set iteration order is not modelled.
- Jobs.CheckActiveTests: `admins` is meant to have no repeats, as the set built in `config.py` has. The model does not require this, and a repeated id in the sequence would get two delivery attempts.
- Grader.GradeSubmission: the percentage is an exact round-half-even of `100 * correct / len(key)` in hundredths, not Python's `round` on a binary float. The two can differ on ties that a float cannot represent exactly.
- Exporter.FormatTimeTaken: its contract reads the text back only for counts under a day. Longer and negative counts are covered by `Exporter.FormatSplitsDays`.
- Exporter.FormatSplitsDays: `timedelta` raises `OverflowError` once the floor day count leaves -999999999..999999999. The model renders every count. The handlers only store zero seconds taken, so the formatter never sees such a count.
- Text.ParseInt: Python's default limit of 4300 digits in `int()` of a string is not modelled. Longer digit runs parse in the model, where the source raises `ValueError`. Question counts, durations and test ids that long are refused either way, through the range checks and `Participant.WideIdRefused`. In `config.py` such a piece would make the import raise.
- Text.ParseInt: the value of a signed or underscored number is stated by `Text.ParseSigned`, `Text.ParseIgnoresUnderscore` and worked examples. No single contract gives the value of every accepted text.
- Config.IdsOf: `int()` on a digit string is taken as its decimal value. `isdigit` accepting non-ASCII digits is not modelled.

=== FILE: admin.dfy ===
/**
 * The operator handlers of bot_handlers/admin.py: the test-creation wizard,
 * the answer-key flow, start/end, the test list, the test view's buttons
 * and the on-demand leaderboard. Each handler
 * is a function from the store and the conversation data to the new store,
 * the reply and the next conversation state. A handler that raises in the
 * source (a missing `user_data` key, `None['answer_key']`) is a `Crashed`
 * reply that changes nothing and stays in the current state.
 */
module Admin {
  import opened Wrappers
  import opened Text
  import opened Grader
  import opened Queries
  import opened Common
  import opened Sorting
  import opened Exporter

  const SkipCommand := "/skip"
  const DefaultTitle := "Nomsiz Test"
  const MaxQuestions := 300
  const MaxDurationHours := 168
  const CancelAction := "create_cancel"

  // ---------------------------------------------------------------------------
  // creation wizard

  /** `receive_title`: "/skip" stands for the default title; any other text is kept as is. */
  function ReceiveTitle(ud: UserData, text: string): (r: (UserData, Next))
    ensures r.1 == Goto(AskQuestions)
    ensures text == SkipCommand ==> r.0.testTitle == Some(DefaultTitle)
    ensures text != SkipCommand ==> r.0.testTitle == Some(text)
    ensures r.0 == ud.(testTitle := r.0.testTitle)
  {
    (ud.(testTitle := Some(if text == SkipCommand then DefaultTitle else text)), Goto(AskQuestions))
  }

  /** The wizard's number check: `int(text)` succeeds and lands in `lo..hi`. */
  predicate InRangeNumber(text: string, lo: int, hi: int) {
    ParseInt(text).Some? && lo <= ParseInt(text).value <= hi
  }

  /** `receive_questions`: a count in 1..300 is stored; anything else asks again and stores nothing. */
  function ReceiveQuestions(ud: UserData, text: string): (r: (UserData, Next))
    ensures r.1 == Goto(AskDuration) <==> InRangeNumber(text, 1, MaxQuestions)
    ensures r.1 == Goto(AskDuration) ==> r.0 == ud.(numQuestions := ParseInt(text))
    ensures r.1 != Goto(AskDuration) ==> r == (ud, Goto(AskQuestions))
  {
    match ParseInt(text)
    case Some(n) =>
      if 1 <= n <= MaxQuestions then (ud.(numQuestions := Some(n)), Goto(AskDuration))
      else (ud, Goto(AskQuestions))
    case None => (ud, Goto(AskQuestions))
  }

  /**
   * What `receive_duration` answers: the confirmation summary, the "wrong
   * duration" prompt, or nothing because reading the title or the count for
   * the summary raised `KeyError`.
   */
  datatype DurationReply = Summary | DurationInvalid | DurationCrashed

  /**
   * `receive_duration`: a duration in 1..168 hours is stored, then the
   * summary reads the title and the count; anything else asks again. When the
   * title or the count is missing the duration is already stored, the handler
   * raises and the conversation stays where it was.
   */
  function ReceiveDuration(ud: UserData, text: string): (r: (UserData, DurationReply, Next))
    ensures r.1 == DurationInvalid <==> !InRangeNumber(text, 1, MaxDurationHours)
    ensures r.1 == DurationInvalid ==> r == (ud, DurationInvalid, Goto(AskDuration))
    ensures InRangeNumber(text, 1, MaxDurationHours) ==> r.0 == ud.(durationHours := ParseInt(text))
    ensures r.2 == Goto(AskConfirm) <==>
      InRangeNumber(text, 1, MaxDurationHours) && ud.testTitle.Some? && ud.numQuestions.Some?
    ensures r.1 == Summary <==> r.2 == Goto(AskConfirm)
    ensures r.1 == DurationCrashed ==> r.2 == Goto(AskDuration)
  {
    match ParseInt(text)
    case Some(h) =>
      if 1 <= h <= MaxDurationHours then
        var ud' := ud.(durationHours := Some(h));
        if ud.testTitle.None? || ud.numQuestions.None? then (ud', DurationCrashed, Goto(AskDuration))
        else (ud', Summary, Goto(AskConfirm))
      else (ud, DurationInvalid, Goto(AskDuration))
    case None => (ud, DurationInvalid, Goto(AskDuration))
  }

  /** A number typed in decimal is accepted as a question count exactly when it is in 1..300. */
  lemma QuestionCountAccepted(ud: UserData, n: nat)
    ensures ReceiveQuestions(ud, DecimalString(n)).1 == Goto(AskDuration) <==> 1 <= n <= MaxQuestions
    ensures 1 <= n <= MaxQuestions ==> ReceiveQuestions(ud, DecimalString(n)).0.numQuestions == Some(n)
  {
    ParseDecimal(n);
  }

  /** A number typed in decimal is accepted as a duration exactly when it is in 1..168. */
  lemma DurationAccepted(ud: UserData, n: nat)
    ensures ReceiveDuration(ud, DecimalString(n)).1 != DurationInvalid <==> 1 <= n <= MaxDurationHours
    ensures 1 <= n <= MaxDurationHours ==> ReceiveDuration(ud, DecimalString(n)).0.durationHours == Some(n)
  {
    ParseDecimal(n);
  }

  /** Text without any digit is never a count or a duration. */
  lemma NonNumericRejected(ud: UserData, text: string)
    requires forall i :: 0 <= i < |text| ==> !IsDigit(text[i])
    ensures ReceiveQuestions(ud, text) == (ud, Goto(AskQuestions))
    ensures ReceiveDuration(ud, text) == (ud, DurationInvalid, Goto(AskDuration))
  {
    ParseNeedsDigit(text);
  }

  datatype CreateReply = CreationCancelled | Created(testId: int) | CreateCrashed

  /**
   * `confirm_creation`: "create_cancel" creates nothing; any other action
   * creates one draft from the collected title, count and duration.
   */
  function ConfirmCreation(st: Store, ud: UserData, action: string, now: int): (r: (Store, CreateReply, Next))
    ensures action == CancelAction ==> r == (st, CreationCancelled, End)
    ensures !r.1.Created? ==> r.0 == st
    ensures r.1.Created? ==>
      && action != CancelAction
      && ud.testTitle.Some? && ud.numQuestions.Some? && ud.durationHours.Some?
      && GetTest(st, r.1.testId).None?
      && GetTest(r.0, r.1.testId) == Some(Test(ud.testTitle.value, ud.numQuestions.value, ud.durationHours.value,
                                               None, Draft, None, None, now))
      && (forall j :: j != r.1.testId ==> GetTest(r.0, j) == GetTest(st, j))
      && |r.0.tests| == |st.tests| + 1
      && r.0.users == st.users && r.0.submissions == st.submissions
    ensures action != CancelAction && ud.testTitle.Some? && ud.numQuestions.Some? && ud.durationHours.Some? ==>
      r.1.Created?
  {
    if action == CancelAction then (st, CreationCancelled, End)
    else if ud.testTitle.None? || ud.numQuestions.None? || ud.durationHours.None? then
      (st, CreateCrashed, Goto(AskConfirm))
    else
      var (st', id) := CreateTest(st, ud.testTitle.value, ud.numQuestions.value, ud.durationHours.value, now);
      (st', Created(id), End)
  }

  /** Going through the wizard with valid inputs creates a draft with exactly those inputs. */
  lemma WizardCreatesDraft(st: Store, title: string, count: nat, hours: nat, now: int)
    requires 1 <= count <= MaxQuestions && 1 <= hours <= MaxDurationHours
    ensures
      var (ud1, _) := ReceiveTitle(EmptyUserData, title);
      var (ud2, _) := ReceiveQuestions(ud1, DecimalString(count));
      var (ud3, summary, _) := ReceiveDuration(ud2, DecimalString(hours));
      var (st', reply, _) := ConfirmCreation(st, ud3, "create_draft", now);
      && summary == Summary
      && reply.Created?
      && GetTest(st', reply.testId).value.numQuestions == count
      && GetTest(st', reply.testId).value.durationHours == hours
      && GetTest(st', reply.testId).value.status == Draft
  {
    ParseDecimal(count);
    ParseDecimal(hours);
  }

  // ---------------------------------------------------------------------------
  // answer key

  /** `set_key_start`: remembers which test and how many answers it needs. */
  function SetKeyStart(st: Store, ud: UserData, testId: int): (r: (UserData, Next))
    ensures GetTest(st, testId).None? ==> r == (ud, End)
    ensures GetTest(st, testId).Some? ==>
      r == (ud.(keyTestId := Some(testId), keyNumQuestions := Some(GetTest(st, testId).value.numQuestions)),
            Goto(AskAnswerKey))
  {
    match GetTest(st, testId)
    case None => (ud, End)
    case Some(t) => (ud.(keyTestId := Some(testId), keyNumQuestions := Some(t.numQuestions)), Goto(AskAnswerKey))
  }

  /** The remembered answer count is the remembered test's count. */
  predicate KeyContextMatches(st: Store, ud: UserData) {
    ud.keyTestId.Some? && ud.keyNumQuestions.Some? && GetTest(st, ud.keyTestId.value).Some? ==>
      ud.keyNumQuestions.value == GetTest(st, ud.keyTestId.value).value.numQuestions
  }

  lemma SetKeyStartMatches(st: Store, ud: UserData, testId: int)
    requires KeyContextMatches(st, ud)
    ensures KeyContextMatches(st, SetKeyStart(st, ud, testId).0)
  {
  }

  datatype KeyReply = KeySaved(testId: int, key: string) | KeyLengthWrong(found: nat, expected: int) | KeyCrashed

  /**
   * `receive_answer_key`: the normalised key is stored only when its length
   * is the remembered count; otherwise nothing changes and the key is asked
   * for again. The test's status is not checked.
   */
  function ReceiveAnswerKey(st: Store, ud: UserData, raw: string): (r: (Store, KeyReply, Next))
    ensures !r.1.KeySaved? ==> r.0 == st
    ensures r.1.KeyLengthWrong? ==> r.2 == Goto(AskAnswerKey)
    ensures ud.keyNumQuestions.Some? && |NormalizeAnswers(raw)| != ud.keyNumQuestions.value ==>
      r == (st, KeyLengthWrong(|NormalizeAnswers(raw)|, ud.keyNumQuestions.value), Goto(AskAnswerKey))
    ensures r.1 == KeyCrashed <==>
      ud.keyNumQuestions.None? || (|NormalizeAnswers(raw)| == ud.keyNumQuestions.value && ud.keyTestId.None?)
    ensures r.1.KeySaved? <==>
      ud.keyNumQuestions.Some? && |NormalizeAnswers(raw)| == ud.keyNumQuestions.value && ud.keyTestId.Some?
    ensures r.1.KeySaved? ==>
      && r.1 == KeySaved(ud.keyTestId.value, NormalizeAnswers(raw))
      && r.0 == UpdateTestAnswerKey(st, ud.keyTestId.value, NormalizeAnswers(raw))
      && r.2 == End
  {
    var normalized := NormalizeAnswers(raw);
    match ud.keyNumQuestions
    case None => (st, KeyCrashed, Goto(AskAnswerKey))
    case Some(target) =>
      if |normalized| != target then (st, KeyLengthWrong(|normalized|, target), Goto(AskAnswerKey))
      else
        match ud.keyTestId
        case None => (st, KeyCrashed, Goto(AskAnswerKey))
        case Some(id) => (UpdateTestAnswerKey(st, id, normalized), KeySaved(id, normalized), End)
  }

  /** A stored key is upper-case letters of exactly the test's length, so the store stays consistent. */
  lemma ReceiveAnswerKeyValid(st: Store, ud: UserData, raw: string)
    requires Valid(st) && KeyContextMatches(st, ud)
    ensures Valid(ReceiveAnswerKey(st, ud, raw).0)
  {
    var (st', reply, _) := ReceiveAnswerKey(st, ud, raw);
    if reply.KeySaved? {
      forall i | 0 <= i < |st'.tests|
        ensures TestConsistent(st'.tests[i])
      {
        assert GetTest(st', i + 1).Some? && GetTest(st, i + 1).Some?;
      }
    }
  }

  // ---------------------------------------------------------------------------
  // start, end, view

  /** `not test['answer_key']`: an absent or empty key. */
  predicate HasKey(t: Test) {
    t.answerKey.Some? && t.answerKey.value != ""
  }

  datatype StartReply = Started(startAt: int, endAt: int) | NoKeyYet | StartCrashed

  /**
   * `start_test_callback`: refused, with nothing changed, when the test has no
   * key; otherwise the window is `now .. now + duration_hours` hours. Only the
   * key is checked, not the status.
   */
  function StartTestCallback(st: Store, testId: int, now: int): (r: (Store, StartReply))
    ensures !r.1.Started? ==> r.0 == st
    ensures GetTest(st, testId).None? ==> r.1 == StartCrashed
    ensures GetTest(st, testId).Some? ==> (r.1.Started? <==> HasKey(GetTest(st, testId).value))
    ensures r.1.Started? ==>
      var t := GetTest(st, testId).value;
      && r.1 == Started(now, now + 3600 * t.durationHours)
      && r.0 == StartTestDb(st, testId, now, now + 3600 * t.durationHours)
  {
    match GetTest(st, testId)
    case None => (st, StartCrashed)
    case Some(t) =>
      if !HasKey(t) then (st, NoKeyYet)
      else
        var endAt := now + 3600 * t.durationHours;
        (StartTestDb(st, testId, now, endAt), Started(now, endAt))
  }

  /** Starting a test is refused while it has no key. */
  lemma ActivationNeedsKey(st: Store, testId: int, now: int)
    requires GetTest(st, testId).Some? && !HasKey(GetTest(st, testId).value)
    ensures StartTestCallback(st, testId, now) == (st, NoKeyYet)
  {
  }

  /** As written, an ended test with a key can be started again: nothing checks the status. */
  lemma StartIgnoresStatus(st: Store, testId: int, now: int)
    requires GetTest(st, testId).Some? && HasKey(GetTest(st, testId).value)
    requires GetTest(st, testId).value.status == Ended
    ensures GetTest(StartTestCallback(st, testId, now).0, testId).value.status == Active
  {
  }

  lemma StartTestValid(st: Store, testId: int, now: int)
    requires Valid(st)
    ensures Valid(StartTestCallback(st, testId, now).0)
  {
    var st' := StartTestCallback(st, testId, now).0;
    forall i | 0 <= i < |st'.tests|
      ensures TestConsistent(st'.tests[i])
    {
      assert GetTest(st', i + 1).Some? && GetTest(st, i + 1).Some?;
    }
  }

  /** `end_test_callback`: the test is ended whatever its status; other tests are untouched. */
  function EndTestCallback(st: Store, testId: int): (r: Store)
    ensures GetTest(st, testId).Some? ==>
      && GetTest(r, testId).Some?
      && GetTest(r, testId).value.status == Ended
      && GetTest(r, testId).value.(status := GetTest(st, testId).value.status) == GetTest(st, testId).value
    ensures forall j :: j != testId ==> GetTest(r, j) == GetTest(st, j)
    ensures GetTest(st, testId).None? ==> r == st
    ensures r.users == st.users && r.submissions == st.submissions && |r.tests| == |st.tests|
  {
    EndTestDb(st, testId)
  }

  lemma EndTestCallbackValid(st: Store, testId: int)
    requires Valid(st)
    ensures Valid(EndTestCallback(st, testId))
  {
    EndTestValid(st, testId);
  }

  /** Ending an ended test again changes nothing. */
  lemma EndTestCallbackIdempotent(st: Store, testId: int)
    ensures EndTestCallback(EndTestCallback(st, testId), testId) == EndTestCallback(st, testId)
  {
    EndTestIdempotent(st, testId);
  }

  /** The buttons `view_test` offers besides the test's details. */
  datatype Buttons = Buttons(setKey: bool, start: bool, end: bool, results: bool, back: bool)

  /** `view_test`: set-key for drafts, start for drafts with a key, end for active tests; results and back always. */
  function ViewTest(st: Store, testId: int): (r: Option<Buttons>)
    ensures r.None? <==> GetTest(st, testId).None?
    ensures r.Some? ==>
      var t := GetTest(st, testId).value;
      && (r.value.setKey <==> t.status == Draft)
      && (r.value.start <==> t.status == Draft && HasKey(t))
      && (r.value.end <==> t.status == Active)
      && r.value.results && r.value.back
  {
    match GetTest(st, testId)
    case None => None
    case Some(t) => Some(Buttons(t.status == Draft, t.status == Draft && HasKey(t), t.status == Active, true, true))
  }

  /** In a consistent store, every key offered for starting has the test's full length. */
  lemma StartButtonMeansFullKey(st: Store, testId: int)
    requires Valid(st)
    requires ViewTest(st, testId).Some? && ViewTest(st, testId).value.start
    ensures |GetTest(st, testId).value.answerKey.value| == GetTest(st, testId).value.numQuestions
  {
  }

  // ---------------------------------------------------------------------------
  // test lists

  /** One button of a test list: id, status (its icon), title and question count. */
  datatype TestEntry = TestEntry(testId: int, status: Status, title: string, numQuestions: int)

  const ManageLimit := 10
  const LeaderboardMenuLimit := 20

  /** The test ids a list shows, in order. */
  function Shown(entries: seq<TestEntry>): (ids: seq<int>)
    ensures |ids| == |entries|
    ensures forall i :: 0 <= i < |entries| ==> ids[i] == entries[i].testId
  {
    seq(|entries|, i requires 0 <= i < |entries| => entries[i].testId)
  }

  /**
   * `entries` describe existing tests, newest first, each test at most once,
   * and no test left off the list was created after one on it.
   */
  ghost predicate NewestListing(st: Store, entries: seq<TestEntry>) {
    && (forall i :: 0 <= i < |entries| ==>
          && GetTest(st, entries[i].testId).Some?
          && var t := GetTest(st, entries[i].testId).value;
          && entries[i] == TestEntry(entries[i].testId, t.status, t.title, t.numQuestions))
    && (forall i, j :: 0 <= i < j < |entries| ==>
          CreatedAt(st, entries[i].testId) >= CreatedAt(st, entries[j].testId))
    && Distinct(Shown(entries))
    && (forall id :: GetTest(st, id).Some? && id !in Shown(entries) ==>
          forall i :: 0 <= i < |entries| ==> CreatedAt(st, entries[i].testId) >= CreatedAt(st, id))
  }

  /** A test list of at most `limit` entries, newest first (`get_all_tests(limit)`). */
  function TestList(st: Store, limit: nat): (entries: seq<TestEntry>)
    ensures |entries| == if limit < |st.tests| then limit else |st.tests|
    ensures NewestListing(st, entries)
  {
    var ids := GetAllTests(st, limit);
    var entries := seq(|ids|, i requires 0 <= i < |ids| =>
      var t := GetTest(st, ids[i]).value;
      TestEntry(ids[i], t.status, t.title, t.numQuestions));
    assert Shown(entries) == ids;
    entries
  }

  /** `manage_tests`: the ten newest tests; an empty list is the "no tests" reply. */
  function ManageTests(st: Store): (entries: seq<TestEntry>)
    ensures |entries| == if |st.tests| < ManageLimit then |st.tests| else ManageLimit
    ensures |entries| == 0 <==> |st.tests| == 0
    ensures NewestListing(st, entries)
  {
    TestList(st, ManageLimit)
  }

  /** `admin_leaderboard_menu`: the twenty newest tests; an empty list is the "no tests" reply. */
  function LeaderboardMenu(st: Store): (entries: seq<TestEntry>)
    ensures |entries| == if |st.tests| < LeaderboardMenuLimit then |st.tests| else LeaderboardMenuLimit
    ensures |entries| == 0 <==> |st.tests| == 0
    ensures NewestListing(st, entries)
  {
    TestList(st, LeaderboardMenuLimit)
  }

  /** With few enough tests, the list shows every test exactly once. */
  lemma SmallListShowsEveryTest(st: Store, limit: nat)
    requires |st.tests| <= limit
    ensures multiset(Shown(TestList(st, limit))) == multiset(IdsUpTo(|st.tests|))
  {
    assert Shown(TestList(st, limit)) == GetAllTests(st, limit);
  }

  // ---------------------------------------------------------------------------
  // send_leaderboard_callback

  datatype LeaderboardReply = NoAnswers | LeaderboardSent(page: Page, total: nat) | LeaderboardCrashed

  /**
   * `send_leaderboard_callback`: no ranked rows means the "no answers" alert
   * (checked before the test is used); otherwise the page for the test's
   * title and the participant count. Rows for a missing test would make
   * `test['title']` raise.
   */
  function SendLeaderboard(st: Store, testId: int): (r: LeaderboardReply)
    ensures r.NoAnswers? <==> GetTestSubmissions(st, testId) == []
    ensures r.LeaderboardCrashed? <==> GetTestSubmissions(st, testId) != [] && GetTest(st, testId).None?
    ensures r.LeaderboardSent? ==>
      && r.total == |GetTestSubmissions(st, testId)| > 0
      && r.page.title == "Leaderboard: " + GetTest(st, testId).value.title
      && |r.page.rows| == r.total
      && r.page == GenerateLeaderboardHtml(GetTest(st, testId).value.title, GetTestSubmissions(st, testId))
  {
    var rows := GetTestSubmissions(st, testId);
    if rows == [] then NoAnswers
    else match GetTest(st, testId)
      case None => LeaderboardCrashed
      case Some(t) => LeaderboardSent(GenerateLeaderboardHtml(t.title, rows), |rows|)
  }

  /** In a consistent store a test with answers always exists, so the handler never raises. */
  lemma SendLeaderboardNeverCrashes(st: Store, testId: int)
    requires Valid(st)
    ensures !SendLeaderboard(st, testId).LeaderboardCrashed?
  {
    var rows := GetTestSubmissions(st, testId);
    if rows != [] {
      var joined := JoinedRows(st.users, st.submissions, testId);
      assert rows[0] in multiset(joined);
      assert Joinable(rows[0], st.users, st.submissions, testId);
      var sub :| sub in st.submissions && sub.testId == testId && 1 <= sub.userId <= |st.users| &&
        rows[0] == JoinRow(sub, st.users[sub.userId - 1]);
      var k :| 0 <= k < |st.submissions| && st.submissions[k] == sub;
      assert GetTest(st, testId).Some?;
    }
  }
}

=== FILE: common.dfy ===
/** Shared handler pieces (bot_handlers/common.py): admin check, subscription check, conversation states. */
module Common {
  import opened Wrappers
  import opened Text
  import opened Config

  /** `is_admin`: the user id is one of those listed in the `ADMIN_USER_IDS` variable text `env`. */
  function IsAdmin(env: string, userId: int): (b: bool)
    ensures b <==> (exists i :: 0 <= i < |SplitOn(env, ',')| &&
                     IsIdPiece(SplitOn(env, ',')[i]) && PieceValue(SplitOn(env, ',')[i]) == userId)
  {
    userId >= 0 && userId in ParseAdminIds(env)
  }

  /** The outcome of asking the messaging service for a user's channel membership. */
  datatype MemberLookup = Member(status: string) | LookupFailed

  /**
   * `check_is_subscribed`: 'left' and 'kicked' are not members, every other
   * status is; a failed lookup counts as not subscribed.
   */
  function IsSubscribed(lookup: MemberLookup): (b: bool)
    ensures b ==> lookup.Member?
    ensures lookup.Member? ==> (b <==> lookup.status != "left" && lookup.status != "kicked")
  {
    match lookup
    case LookupFailed => false
    case Member(status) => !(status in ["left", "kicked"])
  }

  /** The conversation states the handlers return. */
  datatype ConversationState =
    | AskTitle | AskQuestions | AskDuration | AskConfirm | AskAnswerKey
    | AskBroadcastMsg
    | RegisterName | RegisterRegion

  predicate IsAdminState(s: ConversationState) {
    !(s.RegisterName? || s.RegisterRegion?)
  }

  /** The integer each state stands for in the source. */
  function StateCode(s: ConversationState): (c: int)
    ensures c == 10 <==> s.AskBroadcastMsg?
    ensures IsAdminState(s) && !s.AskBroadcastMsg? ==> 0 <= c < 5
    ensures !IsAdminState(s) ==> 0 <= c < 2
  {
    match s
    case AskTitle => 0
    case AskQuestions => 1
    case AskDuration => 2
    case AskConfirm => 3
    case AskAnswerKey => 4
    case AskBroadcastMsg => 10
    case RegisterName => 0
    case RegisterRegion => 1
  }

  /** Within the admin conversations the state codes are distinct. */
  lemma AdminStateCodesDistinct(a: ConversationState, b: ConversationState)
    requires IsAdminState(a) && IsAdminState(b)
    requires StateCode(a) == StateCode(b)
    ensures a == b
  {
  }

  /** The creation states number 0 to 4 in the order the dialogue visits them; registration reuses 0 and 1. */
  lemma StateCodeValues()
    ensures StateCode(AskTitle) == 0 && StateCode(AskQuestions) == 1 && StateCode(AskDuration) == 2
    ensures StateCode(AskConfirm) == 3 && StateCode(AskAnswerKey) == 4 && StateCode(AskBroadcastMsg) == 10
    ensures StateCode(RegisterName) == 0 && StateCode(RegisterRegion) == 1
  {
  }

  /** Within the registration conversation the state codes are distinct. */
  lemma UserStateCodesDistinct(a: ConversationState, b: ConversationState)
    requires !IsAdminState(a) && !IsAdminState(b)
    requires StateCode(a) == StateCode(b)
    ensures a == b
  {
  }

  /** What a handler hands back: a next state, or the end of the conversation. */
  datatype Next = Goto(state: ConversationState) | End

  /** The per-user conversation scratch data (`context.user_data`); absent keys raise KeyError in the source. */
  datatype UserData = UserData(
    testTitle: Option<string>,
    numQuestions: Option<int>,
    durationHours: Option<int>,
    keyTestId: Option<int>,
    keyNumQuestions: Option<int>,
    fullName: Option<string>)

  const EmptyUserData := UserData(None, None, None, None, None, None)
}

=== FILE: config.dfy ===
/** The `ADMIN_USER_IDS` parser of config.py: comma-separated decimal ids. */
module Config {
  import opened Text

  /** A piece contributes an id when, stripped of whitespace, it is a non-empty run of digits. */
  predicate IsIdPiece(piece: string) {
    IsDigits(Strip(piece))
  }

  function PieceValue(piece: string): nat
    requires IsIdPiece(piece)
  {
    DigitsValue(Strip(piece))
  }

  function HeadIds(piece: string): set<nat> {
    if IsIdPiece(piece) then {PieceValue(piece)} else {}
  }

  /** The ids contributed by `pieces`, one piece at a time. */
  function IdsOf(pieces: seq<string>): (ids: set<nat>)
    ensures forall id :: id in ids <==>
      exists i :: 0 <= i < |pieces| && IsIdPiece(pieces[i]) && PieceValue(pieces[i]) == id
  {
    if |pieces| == 0 then {}
    else
      var rest := IdsOf(pieces[1..]);
      ConsContributes(pieces, rest);
      HeadIds(pieces[0]) + rest
  }

  lemma ConsContributes(pieces: seq<string>, rest: set<nat>)
    requires |pieces| > 0
    requires forall id :: id in rest <==>
      exists i :: 0 <= i < |pieces[1..]| && IsIdPiece(pieces[1..][i]) && PieceValue(pieces[1..][i]) == id
    ensures forall id :: id in HeadIds(pieces[0]) + rest <==>
      exists i :: 0 <= i < |pieces| && IsIdPiece(pieces[i]) && PieceValue(pieces[i]) == id
  {
    forall id | id in HeadIds(pieces[0]) + rest
      ensures exists i :: 0 <= i < |pieces| && IsIdPiece(pieces[i]) && PieceValue(pieces[i]) == id
    {
      if id in HeadIds(pieces[0]) {
        assert IsIdPiece(pieces[0]) && PieceValue(pieces[0]) == id;
      } else {
        var j :| 0 <= j < |pieces[1..]| && IsIdPiece(pieces[1..][j]) && PieceValue(pieces[1..][j]) == id;
        assert pieces[j + 1] == pieces[1..][j];
      }
    }
    forall id | exists i :: 0 <= i < |pieces| && IsIdPiece(pieces[i]) && PieceValue(pieces[i]) == id
      ensures id in HeadIds(pieces[0]) + rest
    {
      var i :| 0 <= i < |pieces| && IsIdPiece(pieces[i]) && PieceValue(pieces[i]) == id;
      if i > 0 {
        assert pieces[1..][i - 1] == pieces[i];
      }
    }
  }

  /** The admin id set read from the variable's text; an unset variable reads as "". */
  function ParseAdminIds(env: string): set<nat> {
    IdsOf(SplitOn(env, ','))
  }

  /** An empty (or unset) variable gives no admins. */
  lemma EmptyEnvNoAdmins()
    ensures ParseAdminIds("") == {}
  {
    assert SplitOn("", ',') == [""];
    assert !IsIdPiece("");
  }

  /** Splitting at one separator splits the piece list. */
  lemma {:induction false} SplitAround(a: string, b: string, sep: char)
    ensures SplitOn(a + [sep] + b, sep) == SplitOn(a, sep) + SplitOn(b, sep)
  {
    var s := a + [sep] + b;
    if |a| == 0 {
      assert s[0] == sep && s[1..] == b;
    } else {
      assert s[0] == a[0];
      assert s[1..] == a[1..] + [sep] + b;
      SplitAround(a[1..], b, sep);
    }
  }

  lemma {:induction false} IdsOfConcat(p: seq<string>, q: seq<string>)
    ensures IdsOf(p + q) == IdsOf(p) + IdsOf(q)
  {
    forall id | id in IdsOf(p + q)
      ensures id in IdsOf(p) + IdsOf(q)
    {
      var i :| 0 <= i < |p + q| && IsIdPiece((p + q)[i]) && PieceValue((p + q)[i]) == id;
      if i >= |p| {
        assert (p + q)[i] == q[i - |p|];
      }
    }
    forall id | id in IdsOf(p) + IdsOf(q)
      ensures id in IdsOf(p + q)
    {
      if id in IdsOf(p) {
        var i :| 0 <= i < |p| && IsIdPiece(p[i]) && PieceValue(p[i]) == id;
        assert (p + q)[i] == p[i];
      } else {
        var i :| 0 <= i < |q| && IsIdPiece(q[i]) && PieceValue(q[i]) == id;
        assert (p + q)[|p| + i] == q[i];
      }
    }
  }

  /** Joining two variable values with a comma gives the union of their ids. */
  lemma ParseJoined(a: string, b: string)
    ensures ParseAdminIds(a + "," + b) == ParseAdminIds(a) + ParseAdminIds(b)
  {
    SplitAround(a, b, ',');
    IdsOfConcat(SplitOn(a, ','), SplitOn(b, ','));
  }

  /** Order of the pieces and repeated ids do not matter. */
  lemma ParseOrderAndRepeats(a: string, b: string)
    ensures ParseAdminIds(a + "," + b) == ParseAdminIds(b + "," + a)
    ensures ParseAdminIds(a + "," + a) == ParseAdminIds(a)
  {
    ParseJoined(a, b);
    ParseJoined(b, a);
    ParseJoined(a, a);
    UnionLaws(ParseAdminIds(a), ParseAdminIds(b));
  }

  lemma UnionLaws(x: set<nat>, y: set<nat>)
    ensures x + y == y + x && x + x == x
  {
  }

  /** The variable text `str(i1),str(i2),...` for a non-empty id list. */
  function RenderIds(ids: seq<nat>): (r: seq<string>)
    requires |ids| >= 1
    ensures |r| == |ids|
    ensures forall i :: 0 <= i < |r| ==> r[i] == DecimalString(ids[i])
  {
    seq(|ids|, i requires 0 <= i < |ids| => DecimalString(ids[i]))
  }

  /** The decimal rendering of an id is a piece contributing exactly that id. */
  lemma RenderedPiece(n: nat)
    ensures ',' !in DecimalString(n)
    ensures IsIdPiece(DecimalString(n)) && PieceValue(DecimalString(n)) == n
  {
    StripUnpadded(DecimalString(n));
    DecimalRoundTrip(n);
  }

  /** Writing ids as comma-separated decimals and parsing them back gives exactly those ids. */
  lemma ParseRendered(ids: seq<nat>)
    requires |ids| >= 1
    ensures ParseAdminIds(JoinOn(RenderIds(ids), ',')) == set i | i in ids
  {
    var pieces := RenderIds(ids);
    forall i | 0 <= i < |pieces|
      ensures ',' !in pieces[i]
    {
      RenderedPiece(ids[i]);
    }
    SplitJoin(pieces, ',');
    IdsOfRendered(ids);
  }

  lemma IdsOfRendered(ids: seq<nat>)
    requires |ids| >= 1
    ensures IdsOf(RenderIds(ids)) == set i | i in ids
  {
    RenderedPieces(ids);
    IdsOfPieces(ids, RenderIds(ids));
  }

  lemma RenderedPieces(ids: seq<nat>)
    requires |ids| >= 1
    ensures forall i :: 0 <= i < |ids| ==>
      IsIdPiece(RenderIds(ids)[i]) && PieceValue(RenderIds(ids)[i]) == ids[i]
  {
    forall i | 0 <= i < |ids|
      ensures IsIdPiece(RenderIds(ids)[i]) && PieceValue(RenderIds(ids)[i]) == ids[i]
    {
      RenderedPiece(ids[i]);
    }
  }

  /** Pieces that each contribute the matching id contribute exactly the ids listed. */
  lemma IdsOfPieces(ids: seq<nat>, pieces: seq<string>)
    requires |pieces| == |ids|
    requires forall i :: 0 <= i < |ids| ==> IsIdPiece(pieces[i]) && PieceValue(pieces[i]) == ids[i]
    ensures IdsOf(pieces) == set i | i in ids
  {
    var parsed := IdsOf(pieces);
    forall id | id in parsed
      ensures id in ids
    {
      var i :| 0 <= i < |pieces| && IsIdPiece(pieces[i]) && PieceValue(pieces[i]) == id;
      assert id == ids[i];
    }
    forall id | id in ids
      ensures id in parsed
    {
      var i :| 0 <= i < |ids| && ids[i] == id;
      assert IsIdPiece(pieces[i]) && PieceValue(pieces[i]) == id;
    }
    SameMembers(parsed, ids);
  }

  lemma SameMembers(s: set<nat>, ids: seq<nat>)
    requires forall id :: id in s ==> id in ids
    requires forall id :: id in ids ==> id in s
    ensures s == set i | i in ids
  {
  }

  lemma StripPaddedSeven()
    ensures Strip(" 7 ") == "7"
  {
    assert LStrip(" 7 ") == "7 " by {
      assert " 7 "[1..] == "7 ";
    }
    assert "7 "[..1] == "7";
  }

  lemma JoinExample()
    ensures JoinOn(["-5", "abc", " 7 "], ',') == "-5,abc, 7 "
  {
    var pieces := ["-5", "abc", " 7 "];
    assert pieces[1..][1..] == [" 7 "];
    assert JoinOn(pieces[1..], ',') == "abc, 7 ";
  }

  /** A piece starting with a sign or a letter is not an id, whatever follows. */
  lemma LeadingNonDigitNotId(p: string)
    requires |p| > 0 && !IsSpace(p[0]) && !IsDigit(p[0])
    ensures !IsIdPiece(p)
  {
    assert LStrip(p) == p;
    var r := RStrip(p);
    assert |r| > 0 && r[0] == p[0];
  }

  lemma SingletonIds(p: string)
    ensures IdsOf([p]) == if IsIdPiece(p) then {PieceValue(p)} else {}
  {
    assert [p][1..] == [];
  }

  lemma EmptyUnions(x: set<nat>, y: set<nat>, z: set<nat>)
    requires x == {} && y == {}
    ensures x + y + z == z
  {
  }

  lemma MinusFiveIds()
    ensures IdsOf(["-5"]) == {}
  {
    LeadingNonDigitNotId("-5");
    SingletonIds("-5");
  }

  lemma WordIds()
    ensures IdsOf(["abc"]) == {}
  {
    LeadingNonDigitNotId("abc");
    SingletonIds("abc");
  }

  lemma PaddedSevenIds()
    ensures IdsOf([" 7 "]) == {7}
  {
    PaddedSevenPiece();
    SingletonIds(" 7 ");
  }

  lemma PaddedSevenPiece()
    ensures IsIdPiece(" 7 ") && PieceValue(" 7 ") == 7
  {
    StripPaddedSeven();
    SevenDigits();
  }

  lemma SevenDigits()
    ensures IsDigits("7") && DigitsValue("7") == 7
  {
    assert IsDigit("7"[0]);
  }

  /** Pieces that contribute nothing can be dropped from the front. */
  lemma DropBarrenPieces(p: string, q: string, r: string)
    requires IdsOf([p]) == {} && IdsOf([q]) == {}
    ensures IdsOf([p, q, r]) == IdsOf([r])
  {
    IdsOfConcat([p], [q]);
    IdsOfConcat([p] + [q], [r]);
    assert [p, q, r] == [p] + [q] + [r];
    EmptyUnions(IdsOf([p]), IdsOf([q]), IdsOf([r]));
  }

  lemma IdsOfExample()
    ensures IdsOf(["-5", "abc", " 7 "]) == {7}
  {
    MinusFiveIds();
    WordIds();
    PaddedSevenIds();
    DropBarrenPieces("-5", "abc", " 7 ");
  }

  /** Signed or non-numeric pieces are dropped rather than rejected. */
  lemma DropsSignedAndWords()
    ensures ParseAdminIds("-5,abc, 7 ") == {7}
  {
    JoinExample();
    SplitJoin(["-5", "abc", " 7 "], ',');
    IdsOfExample();
  }
}

=== FILE: exporter.dfy ===
/** The leaderboard report of services/exporter.py, as structured rows rather than markup. */
module Exporter {
  import opened Wrappers
  import opened Text
  import opened Queries

  /** Two decimal digits, zero-padded (`%02d`). */
  function Pad2(n: nat): (r: string)
    requires n < 100
    ensures |r| == 2 && IsDigit(r[0]) && IsDigit(r[1])
    ensures DigitsValue(r) == n
  {
    var r := [DigitChar(n / 10), DigitChar(n % 10)];
    assert r[..1] == [DigitChar(n / 10)] && r[..1][..0] == [];
    assert DigitsValue(r[..1]) == n / 10;
    assert DigitsValue(r) == 10 * (n / 10) + n % 10;
    r
  }

  /**
   * `format_time_taken`: `str(timedelta(seconds=s))`, i.e. "H:MM:SS", preceded
   * by "D day, " / "D days, " when the floor day count is not zero (so -1
   * second reads "-1 day, 23:59:59").
   */
  function FormatTimeTaken(seconds: int): (r: string)
    ensures 0 <= seconds < 86400 ==> ReadClock(r) == Some(seconds)
  {
    var days := seconds / 86400;
    var rem := seconds % 86400;
    var within := rem % 3600;
    ClockParts(rem);
    var clock := DecimalString(rem / 3600) + ":" + Pad2(within / 60) + ":" + Pad2(within % 60);
    ClockReadsBack(rem / 3600, within / 60, within % 60);
    if days == 0 then clock else IntString(days) + DayWord(days) + clock
  }

  /** timedelta's plural rule: "day" only for a count of one either way. */
  function DayWord(days: int): string {
    if days == 1 || days == -1 then " day, " else " days, "
  }

  /** `divmod(rem, 3600)` then `divmod(minutes, 60)` recombine to `rem`. */
  lemma ClockParts(rem: nat)
    ensures rem % 3600 / 60 < 60 && rem % 3600 % 60 < 60
    ensures 3600 * (rem / 3600) + 60 * (rem % 3600 / 60) + rem % 3600 % 60 == rem
  {
    var within := rem % 3600;
    assert rem == 3600 * (rem / 3600) + within;
    assert within == 60 * (within / 60) + within % 60;
  }

  /**
   * Reads "H:MM:SS" back to seconds: hours as `str` writes them (no leading
   * zero), minutes and seconds as two digits below 60; `None` for any other text.
   */
  function ReadClock(r: string): Option<int> {
    if |r| < 7 || r[|r| - 6] != ':' || r[|r| - 3] != ':' then None
    else
      var h := r[..|r| - 6];
      var m := r[|r| - 5..|r| - 3];
      var s := r[|r| - 2..];
      if && IsDigits(h) && IsDigits(m) && IsDigits(s)
         && h == DecimalString(DigitsValue(h)) && DigitsValue(m) < 60 && DigitsValue(s) < 60
      then Some(3600 * DigitsValue(h) + 60 * DigitsValue(m) + DigitsValue(s))
      else None
  }

  /** The clock text built from hours, minutes and seconds reads back to their total. */
  lemma ClockReadsBack(h: nat, m: nat, s: nat)
    requires m < 60 && s < 60
    ensures ReadClock(DecimalString(h) + ":" + Pad2(m) + ":" + Pad2(s)) == Some(3600 * h + 60 * m + s)
  {
    var hs, ms, ss := DecimalString(h), Pad2(m), Pad2(s);
    ClockSlices(hs, ms, ss);
    DecimalRoundTrip(h);
    assert IsDigits(ms) && IsDigits(ss);
    assert IsDigits(hs) && hs == DecimalString(DigitsValue(hs));
  }

  /** Where the reader finds the three fields of "H:MM:SS". */
  lemma ClockSlices(hs: string, ms: string, ss: string)
    requires |ms| == 2 && |ss| == 2
    ensures var r := hs + ":" + ms + ":" + ss;
      && |r| == |hs| + 6 && r[|r| - 6] == ':' && r[|r| - 3] == ':'
      && r[..|r| - 6] == hs && r[|r| - 5..|r| - 3] == ms && r[|r| - 2..] == ss
  {
    var r := hs + ":" + ms + ":" + ss;
    assert r[..|r| - 6] == hs;
    assert r[|r| - 5..|r| - 3] == ms;
    assert r[|r| - 2..] == ss;
  }

  /** A digit's value written back as a digit is the same character. */
  lemma DigitCharValue(c: char)
    requires IsDigit(c)
    ensures DigitChar(DigitValue(c)) == c
  {
  }

  /** Two digits are the zero-padded rendering of their own value. */
  lemma Pad2Unique(t: string)
    requires |t| == 2 && IsDigits(t)
    ensures DigitsValue(t) < 100 && Pad2(DigitsValue(t)) == t
  {
    assert t[..1][..0] == [] && t[..1][0] == t[0];
    assert DigitsValue(t[..1]) == DigitValue(t[0]);
    assert DigitsValue(t) == 10 * DigitValue(t[0]) + DigitValue(t[1]);
    DigitCharValue(t[0]);
    DigitCharValue(t[1]);
  }

  /** Hours, minutes below 60 and seconds below 60 are recovered from their total. */
  lemma ClockDivides(h: nat, m: nat, s: nat)
    requires m < 60 && s < 60
    ensures var v := 3600 * h + 60 * m + s;
      v / 3600 == h && v % 3600 / 60 == m && v % 3600 % 60 == s
  {
    var v := 3600 * h + 60 * m + s;
    assert 0 <= 60 * m + s < 3600;
    assert v % 3600 == 60 * m + s;
  }

  /** Text that reads as `v` seconds is the clock of `v`'s hours, minutes and seconds. */
  lemma {:induction false} ClockTextOf(r: string, v: int)
    requires ReadClock(r) == Some(v)
    ensures 0 <= v && r == DecimalString(v / 3600) + ":" + Pad2(v % 3600 / 60) + ":" + Pad2(v % 3600 % 60)
  {
    var h := r[..|r| - 6];
    var m := r[|r| - 5..|r| - 3];
    var s := r[|r| - 2..];
    ClockDivides(DigitsValue(h), DigitsValue(m), DigitsValue(s));
    Pad2Unique(m);
    Pad2Unique(s);
    assert r == h + ":" + m + ":" + s;
  }

  /**
   * The clock reading is one-to-one: text that reads as a number of seconds
   * within a day is exactly what `format_time_taken` writes for that number.
   */
  lemma ClockIsCanonical(r: string, v: int)
    requires ReadClock(r) == Some(v) && v < 86400
    ensures FormatTimeTaken(v) == r
  {
    ClockTextOf(r, v);
    FormatWithinDay(v);
  }

  /** Sixty minutes is not a clock reading: `str(timedelta)` never writes "0:60:00". */
  lemma ClockRejectsSixtyMinutes()
    ensures ReadClock("0:60:00") == None
  {
    var r := "0:60:00";
    assert r[|r| - 5..|r| - 3] == "60";
    assert "60"[..1] == "6";
  }

  /** A missing time is rendered as zero seconds. */
  lemma FormatZero()
    ensures FormatTimeTaken(0) == "0:00:00"
  {
    assert DigitChar(0) == '0';
    assert Pad2(0) == "00";
    assert DecimalString(0) == "0";
  }

  /** One hour, one minute and one second. */
  lemma FormatHourMinuteSecond()
    ensures FormatTimeTaken(3661) == "1:01:01"
  {
    assert DigitChar(0) == '0' && DigitChar(1) == '1';
    assert Pad2(1) == "01";
    assert DecimalString(1) == "1";
  }

  /**
   * Any count of seconds, negative ones included, reads as its floor day
   * count (when not zero) before the clock of what remains within that day.
   */
  lemma FormatSplitsDays(seconds: int)
    ensures var days := seconds / 86400;
      && FormatTimeTaken(seconds) ==
           (if days == 0 then "" else IntString(days) + DayWord(days)) + FormatTimeTaken(seconds % 86400)
      && ReadClock(FormatTimeTaken(seconds % 86400)) == Some(seconds - 86400 * days)
  {
    var rem := seconds % 86400;
    FormatWithinDay(rem);
    assert FormatTimeTaken(seconds) ==
      (if seconds / 86400 == 0 then "" else IntString(seconds / 86400) + DayWord(seconds / 86400)) + FormatTimeTaken(rem);
    assert ReadClock(FormatTimeTaken(rem)) == Some(rem);
  }

  /** Seconds within one day render as the bare clock. */
  lemma FormatWithinDay(rem: int)
    requires 0 <= rem < 86400
    ensures FormatTimeTaken(rem) ==
      DecimalString(rem / 3600) + ":" + Pad2(rem % 3600 / 60) + ":" + Pad2(rem % 3600 % 60)
  {
    assert rem / 86400 == 0 && rem % 86400 == rem;
  }

  /** `@username` when the user has a username, else "N/A". */
  function UserCell(username: Option<string>): (r: string)
    ensures username.Some? && username.value != "" ==> r == "@" + username.value
    ensures !(username.Some? && username.value != "") ==> r == "N/A"
  {
    if username.Some? && username.value != "" then "@" + username.value else "N/A"
  }

  /** One table row: rank, name, user, correct, wrong, percent (hundredths), time, submission time. */
  datatype Row = Row(rank: nat, name: string, user: string, correct: int, wrong: int,
                     percent: int, time: string, submittedAt: int)

  /** The page: its `<title>`, its heading and its table rows. */
  datatype Page = Page(title: string, heading: string, rows: seq<Row>)

  function RenderRow(rank: nat, sub: RankedRow): Row {
    Row(rank, sub.fullName, UserCell(sub.username), sub.correctCount, sub.wrongCount,
        sub.percent, FormatTimeTaken(sub.timeTakenSeconds.GetOr(0)), sub.submittedAt)
  }

  /**
   * `generate_leaderboard_html`: the title in both the `<title>` and the
   * heading, then one row per submission in input order, ranked from 1.
   */
  function GenerateLeaderboardHtml(testTitle: string, subs: seq<RankedRow>): (p: Page)
    ensures p.title == "Leaderboard: " + testTitle && p.heading == p.title
    ensures |p.rows| == |subs|
    ensures forall i :: 0 <= i < |subs| ==>
      p.rows[i].rank == i + 1 && p.rows[i].name == subs[i].fullName &&
      p.rows[i].correct == subs[i].correctCount && p.rows[i].wrong == subs[i].wrongCount &&
      p.rows[i].percent == subs[i].percent && p.rows[i].submittedAt == subs[i].submittedAt
    ensures forall i :: 0 <= i < |subs| ==>
      p.rows[i].user == UserCell(subs[i].username) &&
      p.rows[i].time == FormatTimeTaken(subs[i].timeTakenSeconds.GetOr(0))
    ensures forall i :: 0 <= i < |subs| && subs[i].timeTakenSeconds.None? ==> p.rows[i].time == "0:00:00"
  {
    FormatZero();
    Page("Leaderboard: " + testTitle, "Leaderboard: " + testTitle,
         seq(|subs|, i requires 0 <= i < |subs| => RenderRow(i + 1, subs[i])))
  }

  /** Rendering a longer list extends the page: earlier rows are unchanged and ranks continue. */
  lemma LeaderboardAppend(testTitle: string, subs: seq<RankedRow>, more: seq<RankedRow>)
    ensures GenerateLeaderboardHtml(testTitle, subs + more).rows[..|subs|] == GenerateLeaderboardHtml(testTitle, subs).rows
    ensures forall i :: 0 <= i < |more| ==>
      GenerateLeaderboardHtml(testTitle, subs + more).rows[|subs| + i] == RenderRow(|subs| + i + 1, more[i])
  {
  }
}

=== FILE: grader.dfy ===
/** Answer normalisation and grading (services/grader.py). */
module Grader {
  import opened Text

  // ---------------------------------------------------------------------------
  // normalize_answers

  /** The alphabetic characters of `s`, in their original order. */
  function Letters(s: string): (r: string)
    ensures |r| <= |s|
    ensures forall i :: 0 <= i < |r| ==> IsAlpha(r[i])
  {
    if |s| == 0 then ""
    else (if IsAlpha(s[0]) then [s[0]] else "") + Letters(s[1..])
  }

  /** Every kept character is a character of the input. */
  lemma {:induction false} LettersFromInput(s: string)
    ensures forall c :: c in Letters(s) ==> c in s
  {
    if |s| > 0 {
      LettersFromInput(s[1..]);
      assert forall c :: c in s[1..] ==> c in s;
    }
  }

  /** The letters of upper-cased text are upper-case letters. */
  lemma UpperLetters(input: string)
    ensures forall i :: 0 <= i < |Letters(UpperAll(input))| ==> IsUpperLetter(Letters(UpperAll(input))[i])
  {
    var s := UpperAll(input);
    var r := Letters(s);
    LettersFromInput(s);
    forall i | 0 <= i < |r|
      ensures IsUpperLetter(r[i])
    {
      assert r[i] in s;
      var j :| 0 <= j < |s| && s[j] == r[i];
      assert s[j] == Upper(input[j]);
    }
  }

  /** Text with no lower-case letter is its own upper-case form. */
  lemma UpperAllNoLower(s: string)
    requires forall i :: 0 <= i < |s| ==> !('a' <= s[i] <= 'z')
    ensures UpperAll(s) == s
  {
  }

  predicate HasDigit(s: string) {
    exists i :: 0 <= i < |s| && IsDigit(s[i])
  }

  /**
   * `normalize_answers`: uppercase, then keep only letters. The source tests
   * for digits and then runs the same expression in both branches.
   */
  function NormalizeAnswers(input: string): (r: string)
    ensures |r| <= |input|
    ensures forall i :: 0 <= i < |r| ==> IsUpperLetter(r[i])
  {
    if |input| == 0 then ""
    else
      var s := UpperAll(input);
      UpperLetters(input);
      if HasDigit(s) then Letters(s) else Letters(s)
  }

  /** Letter extraction distributes over concatenation. */
  lemma {:induction false} LettersConcat(a: string, b: string)
    ensures Letters(a + b) == Letters(a) + Letters(b)
  {
    if |a| == 0 {
      assert a + b == b;
    } else {
      var c, rest := a[0], a[1..];
      LettersConcat(rest, b);
      assert a == [c] + rest && a + b == [c] + (rest + b);
      LettersCons(c, rest);
      LettersCons(c, rest + b);
    }
  }

  lemma LettersCons(c: char, s: string)
    ensures Letters([c] + s) == (if IsAlpha(c) then [c] else "") + Letters(s)
  {
    assert ([c] + s)[1..] == s;
  }

  /** Uppercasing distributes over concatenation. */
  lemma UpperConcat(a: string, b: string)
    ensures UpperAll(a + b) == UpperAll(a) + UpperAll(b)
  {
  }

  /**
   * The reference description: the result is the uppercased input's letters
   * in order, whichever branch the source takes (so also for empty input).
   */
  lemma NormalizeIsLettersOfUpper(input: string)
    ensures NormalizeAnswers(input) == Letters(UpperAll(input))
  {
  }

  /** Each input character contributes its uppercase form if it is a letter, and nothing otherwise. */
  lemma {:induction false} NormalizeConcat(a: string, b: string)
    ensures NormalizeAnswers(a + b) == NormalizeAnswers(a) + NormalizeAnswers(b)
  {
    UpperConcat(a, b);
    LettersConcat(UpperAll(a), UpperAll(b));
  }

  lemma NormalizeChar(c: char)
    ensures NormalizeAnswers([c]) == if IsAlpha(c) then [Upper(c)] else ""
  {
    assert UpperAll([c]) == [Upper(c)];
  }

  /** Deleting a digit (or any non-letter) anywhere in the input does not change the result. */
  lemma NormalizeIgnoresNonLetter(a: string, c: char, b: string)
    requires !IsAlpha(c)
    ensures NormalizeAnswers(a + [c] + b) == NormalizeAnswers(a + b)
  {
    NormalizeConcat(a + [c], b);
    NormalizeConcat(a, [c]);
    NormalizeChar(c);
    NormalizeConcat(a, b);
  }

  /** Positions of `s` holding a letter. */
  ghost function AlphaPositions(s: string): set<nat> {
    set i: nat | i < |s| && IsAlpha(s[i])
  }

  lemma AlphaPositionsSnoc(front: string, c: char)
    ensures AlphaPositions(front + [c]) == AlphaPositions(front) + (if IsAlpha(c) then {|front|} else {})
    ensures |front| !in AlphaPositions(front)
  {
    var s := front + [c];
    forall i: nat | i < |front|
      ensures s[i] == front[i]
    {
    }
  }

  /** The result has exactly one character per letter of the input. */
  lemma {:induction false} NormalizeLength(input: string)
    ensures |NormalizeAnswers(input)| == |AlphaPositions(input)|
  {
    if |input| == 0 {
      assert AlphaPositions(input) == {};
    } else {
      var k := |input| - 1;
      var front := input[..k];
      NormalizeLength(front);
      assert input == front + [input[k]];
      NormalizeConcat(front, [input[k]]);
      NormalizeChar(input[k]);
      AlphaPositionsSnoc(front, input[k]);
    }
  }

  lemma {:induction false} LettersOfUpperLetters(s: string)
    requires forall i :: 0 <= i < |s| ==> IsUpperLetter(s[i])
    ensures Letters(s) == s && UpperAll(s) == s
  {
    if |s| > 0 {
      LettersOfUpperLetters(s[1..]);
      assert s == [s[0]] + s[1..];
    }
  }

  /** Normalising an already normalised answer string changes nothing. */
  lemma NormalizeIdempotent(input: string)
    ensures NormalizeAnswers(NormalizeAnswers(input)) == NormalizeAnswers(input)
  {
    var r := NormalizeAnswers(input);
    LettersOfUpperLetters(r);
  }

  /** tests/test_grader.py: `normalize_answers("abc") == "ABC"`. */
  lemma NormalizeExampleLower()
    ensures NormalizeAnswers("abc") == "ABC"
  {
    NormalizeIsLettersOfUpper("abc");
    assert UpperAll("abc") == "ABC";
    assert Letters("C") == "C";
    assert Letters("BC") == "BC";
    assert Letters("ABC") == "ABC";
  }

  /** tests/test_grader.py: `normalize_answers("A B C") == "ABC"`. */
  lemma NormalizeExampleSpaces()
    ensures NormalizeAnswers("A B C") == "ABC"
  {
    NormalizeIsLettersOfUpper("A B C");
    UpperAllNoLower("A B C");
    assert Letters("C") == "C";
    assert Letters(" C") == "C";
    assert Letters("B C") == "BC";
    assert Letters(" B C") == "BC";
    assert Letters("A B C") == "ABC";
  }

  /** tests/test_grader.py: `normalize_answers("A,B,C") == "ABC"`. */
  lemma NormalizeExampleCommas()
    ensures NormalizeAnswers("A,B,C") == "ABC"
  {
    NormalizeIsLettersOfUpper("A,B,C");
    UpperAllNoLower("A,B,C");
    assert Letters("C") == "C";
    assert Letters(",C") == "C";
    assert Letters("B,C") == "BC";
    assert Letters(",B,C") == "BC";
    assert Letters("A,B,C") == "ABC";
  }

  /** tests/test_grader.py: `normalize_answers("1A 2B 3C") == "ABC"`. */
  lemma NormalizeExampleIndexed()
    ensures NormalizeAnswers("1A 2B 3C") == "ABC"
  {
    NormalizeIsLettersOfUpper("1A 2B 3C");
    UpperAllNoLower("1A 2B 3C");
    assert Letters("C") == "C";
    assert Letters("3C") == "C";
    assert Letters(" 3C") == "C";
    assert Letters("B 3C") == "BC";
    assert Letters("2B 3C") == "BC";
    assert Letters(" 2B 3C") == "BC";
    assert Letters("A 2B 3C") == "ABC";
    assert Letters("1A 2B 3C") == "ABC";
  }

  /** tests/test_grader.py: `normalize_answers("1.A 2.b 3.C") == "ABC"`. */
  lemma NormalizeExampleDotted()
    ensures NormalizeAnswers("1.A 2.b 3.C") == "ABC"
  {
    NormalizeIsLettersOfUpper("1.A 2.b 3.C");
    UpperDotted();
    LettersDotted();
  }

  lemma UpperDotted()
    ensures UpperAll("1.A 2.b 3.C") == "1.A 2.B 3.C"
  {
    assert Upper('b') == 'B';
  }

  lemma LettersDotted()
    ensures Letters("1.A 2.B 3.C") == "ABC"
  {
    LettersDottedTail();
    assert Letters(" 2.B 3.C") == "BC";
    assert Letters("A 2.B 3.C") == "ABC";
    assert Letters(".A 2.B 3.C") == "ABC";
    assert Letters("1.A 2.B 3.C") == "ABC";
  }

  lemma LettersDottedTail()
    ensures Letters("2.B 3.C") == "BC"
  {
    assert Letters("C") == "C";
    assert Letters(".C") == "C";
    assert Letters("3.C") == "C";
    assert Letters(" 3.C") == "C";
    assert Letters("B 3.C") == "BC";
    assert Letters(".B 3.C") == "BC";
    assert Letters("2.B 3.C") == "BC";
  }

  /** tests/test_grader.py: `normalize_answers("10A 11B") == "AB"`. */
  lemma NormalizeExampleMultiDigit()
    ensures NormalizeAnswers("10A 11B") == "AB"
  {
    NormalizeIsLettersOfUpper("10A 11B");
    UpperAllNoLower("10A 11B");
    assert Letters("B") == "B";
    assert Letters("1B") == "B";
    assert Letters("11B") == "B";
    assert Letters(" 11B") == "B";
    assert Letters("A 11B") == "AB";
    assert Letters("0A 11B") == "AB";
    assert Letters("10A 11B") == "AB";
  }

  // ---------------------------------------------------------------------------
  // grade_submission

  /** Agreeing positions among the first `n`. */
  function CountBelow(sub: string, key: string, n: nat): (c: nat)
    requires n <= |sub| && n <= |key|
    ensures c <= n
  {
    if n == 0 then 0
    else CountBelow(sub, key, n - 1) + (if sub[n - 1] == key[n - 1] then 1 else 0)
  }

  /** How many positions `zip` compares: the length of the shorter string. */
  function Shorter(sub: string, key: string): (n: nat)
    ensures n <= |sub| && n <= |key| && (n == |sub| || n == |key|)
  {
    if |sub| < |key| then |sub| else |key|
  }

  /** The positions `zip` compares, where the two strings agree. */
  function MatchCount(sub: string, key: string): (c: nat)
    ensures c <= |sub| && c <= |key|
    ensures c == |MatchPositions(sub, key, Shorter(sub, key))|
  {
    CountIsPositions(sub, key, Shorter(sub, key));
    CountBelow(sub, key, Shorter(sub, key))
  }

  /** The independent description: the agreeing positions below `n`. */
  ghost function MatchPositions(sub: string, key: string, n: nat): set<nat>
    requires n <= |sub| && n <= |key|
  {
    set i: nat | i < n && sub[i] == key[i]
  }

  /** The count is the number of agreeing positions among those compared. */
  lemma {:induction false} CountIsPositions(sub: string, key: string, n: nat)
    requires n <= |sub| && n <= |key|
    ensures CountBelow(sub, key, n) == |MatchPositions(sub, key, n)|
  {
    if n == 0 {
      assert MatchPositions(sub, key, n) == {};
    } else {
      CountIsPositions(sub, key, n - 1);
      var before := MatchPositions(sub, key, n - 1);
      if sub[n - 1] == key[n - 1] {
        assert MatchPositions(sub, key, n) == before + {n - 1};
      } else {
        assert MatchPositions(sub, key, n) == before;
      }
    }
  }

  lemma MulMono(a: int, b: int, d: nat)
    requires a <= b
    ensures a * d <= b * d
  {
  }

  /** A non-zero whole multiple of `d` is at least `d` away from zero. */
  lemma SignedMultiple(e: int, d: nat)
    ensures e >= 1 ==> e * d >= d
    ensures e <= -1 ==> e * d + d <= 0
  {
    if e >= 1 {
      MulMono(1, e, d);
    } else if e <= -1 {
      MulMono(1, -e, d);
    }
  }

  /**
   * Round-half-to-even of `n / d` to a whole number: the value is within half
   * a unit of the exact quotient, and an exact half goes to the even side.
   */
  function RoundHalfEven(n: nat, d: nat): (r: nat)
    requires d > 0
    ensures 2 * (r * d - n) <= d && 2 * (n - r * d) <= d
    ensures 2 * (n - (n / d) * d) == d ==> r % 2 == 0
  {
    var q := n / d;
    var rem := n % d;
    assert n == q * d + rem;
    assert (q + 1) * d == q * d + d;
    if 2 * rem > d || (2 * rem == d && q % 2 == 1) then q + 1 else q
  }

  /** Rounding `10000 * correct / total` never exceeds 100 percent. */
  lemma PercentAtMostHundred(correct: nat, total: nat)
    requires 0 < total && correct <= total
    ensures RoundHalfEven(10000 * correct, total) <= 10000
  {
    var r := RoundHalfEven(10000 * correct, total);
    assert r * total == (r - 10000) * total + 10000 * total;
    SignedMultiple(r - 10000, total);
  }

  /** The stored result of grading: percent is kept in hundredths of a percent. */
  datatype Grade = Grade(correct: nat, wrong: nat, percent: nat)

  /**
   * `grade_submission`: correct = agreeing positions over the shorter
   * length, wrong = key length - correct, percent = round(100 * correct / total, 2).
   * An empty key grades as (0, 0, 0) without dividing.
   */
  function GradeSubmission(sub: string, key: string): (g: Grade)
    ensures |key| == 0 ==> g == Grade(0, 0, 0)
    ensures |key| > 0 ==> g.correct == |MatchPositions(sub, key, Shorter(sub, key))|
    ensures |key| > 0 ==> g.correct + g.wrong == |key|
    ensures g.correct <= |sub| && g.correct <= |key|
    ensures g.percent <= 10000
    ensures |key| > 0 ==> 2 * (g.percent * |key| - 10000 * g.correct) <= |key|
    ensures |key| > 0 ==> 2 * (10000 * g.correct - g.percent * |key|) <= |key|
  {
    var total := |key|;
    if total == 0 then Grade(0, 0, 0)
    else
      var correct := MatchCount(sub, key);
      PercentAtMostHundred(correct, total);
      Grade(correct, total - correct, RoundHalfEven(10000 * correct, total))
  }

  /** A submission equal to the key scores every question. */
  lemma GradePerfect(key: string)
    requires |key| > 0
    ensures GradeSubmission(key, key) == Grade(|key|, 0, 10000)
  {
    MatchSelf(key);
    RoundExact(10000, |key|);
  }

  /** Rounding an exact quotient returns it. */
  lemma RoundExact(k: nat, d: nat)
    requires d > 0
    ensures RoundHalfEven(k * d, d) == k
  {
    var r := RoundHalfEven(k * d, d);
    assert r * d - k * d == (r - k) * d;
    SignedMultiple(r - k, d);
  }

  lemma MatchSelf(key: string)
    ensures MatchCount(key, key) == |key|
  {
    CountSelf(key, |key|);
  }

  lemma {:induction false} CountSelf(key: string, n: nat)
    requires n <= |key|
    ensures CountBelow(key, key, n) == n
  {
    if n > 0 {
      CountSelf(key, n - 1);
    }
  }

  /** The cases checked by tests/test_grader.py (66.67 is 6667 hundredths). */
  lemma GradeExamples()
    ensures GradeSubmission("ABCDE", "ABCDE") == Grade(5, 0, 10000)
    ensures GradeSubmission("ABXDE", "ABCDE") == Grade(4, 1, 8000)
    ensures GradeSubmission("AB", "ABC") == Grade(2, 1, 6667)
  {
    GradePerfect("ABCDE");
    assert MatchCount("ABXDE", "ABCDE") == 4 by {
      assert CountBelow("ABXDE", "ABCDE", 2) == 2;
    }
    assert MatchCount("AB", "ABC") == 2;
  }
}

=== FILE: jobs.dfy ===
/**
 * The periodic expiry sweep of scheduler/jobs.py: every active test whose
 * end time has passed is ended, and for each one with submissions a report
 * (leaderboard page and a top-three caption) is sent to every configured
 * administrator. Delivery failures are logged and skipped, so the outcome of
 * each send is a parameter: the set of (test, admin) pairs whose send fails.
 */
module Jobs {
  import opened Wrappers
  import opened Queries
  import opened Exporter

  /** One line of the caption's "Top 3" list. */
  datatype TopLine = TopLine(place: nat, fullName: string, percent: int)

  /** One `send_document` attempt and whether it went through. */
  datatype Delivery = Delivery(adminId: int, delivered: bool)

  /** What the sweep sends about one ended test. */
  datatype Report = Report(
    testId: int,
    title: string,
    total: nat,
    top: seq<TopLine>,
    page: Page,
    deliveries: seq<Delivery>)

  /** The caption's list: the first three ranked rows (fewer if there are fewer), numbered from one. */
  function TopThree(rows: seq<RankedRow>): (lines: seq<TopLine>)
    ensures |lines| == if |rows| < 3 then |rows| else 3
    ensures forall i :: 0 <= i < |lines| ==> lines[i] == TopLine(i + 1, rows[i].fullName, rows[i].percent)
  {
    var n := if |rows| < 3 then |rows| else 3;
    seq(n, i requires 0 <= i < n => TopLine(i + 1, rows[i].fullName, rows[i].percent))
  }

  /** One attempt per administrator, in configuration order; a failure does not stop the others. */
  function Deliver(admins: seq<int>, testId: int, failing: set<(int, int)>): (ds: seq<Delivery>)
    ensures |ds| == |admins|
    ensures forall i :: 0 <= i < |admins| ==>
      ds[i].adminId == admins[i] && (ds[i].delivered <==> (testId, admins[i]) !in failing)
  {
    seq(|admins|, i requires 0 <= i < |admins| => Delivery(admins[i], (testId, admins[i]) !in failing))
  }

  /** The report for test `id`, built from the ranked listing of `st`. */
  function MakeReport(st: Store, id: int, admins: seq<int>, failing: set<(int, int)>): (rep: Report)
    requires 1 <= id <= |st.tests|
    ensures rep.testId == id && rep.title == st.tests[id - 1].title
    ensures rep.total == |GetTestSubmissions(st, id)|
    ensures rep.page.title == "Leaderboard: " + rep.title
    ensures |rep.page.rows| == rep.total && |rep.deliveries| == |admins|
    ensures rep.page == GenerateLeaderboardHtml(rep.title, GetTestSubmissions(st, id))
    ensures rep.top == TopThree(GetTestSubmissions(st, id))
    ensures rep.deliveries == Deliver(admins, id, failing)
  {
    var rows := GetTestSubmissions(st, id);
    var title := st.tests[id - 1].title;
    Report(id, title, |rows|, TopThree(rows), GenerateLeaderboardHtml(title, rows), Deliver(admins, id, failing))
  }

  predicate IdsIn(st: Store, ids: seq<int>) {
    forall i :: 0 <= i < |ids| ==> 1 <= ids[i] <= |st.tests|
  }

  /**
   * Reference definition of the reports: for each listed test that has
   * submissions, in list order, its report computed on the store before the
   * sweep.
   */
  function ReportsFor(st: Store, ids: seq<int>, admins: seq<int>, failing: set<(int, int)>): (reps: seq<Report>)
    requires IdsIn(st, ids)
    ensures |reps| <= |ids|
    ensures forall rep :: rep in reps ==> rep.testId in ids && rep.total > 0
  {
    if |ids| == 0 then []
    else
      (if GetTestSubmissions(st, ids[0]) == [] then [] else [MakeReport(st, ids[0], admins, failing)])
      + ReportsFor(st, ids[1..], admins, failing)
  }

  /** The ranked listing depends only on the users and submissions. */
  lemma ListingIgnoresTests(st: Store, st': Store, id: int)
    requires st'.users == st.users && st'.submissions == st.submissions
    ensures GetTestSubmissions(st', id) == GetTestSubmissions(st, id)
  {
  }

  /** `st'` is `st` with exactly the listed tests ended. */
  predicate EndedExactly(st: Store, st': Store, ids: seq<int>) {
    && st'.users == st.users && st'.submissions == st.submissions
    && |st'.tests| == |st.tests|
    && forall j :: 0 <= j < |st.tests| ==>
         st'.tests[j] == if j + 1 in ids then st.tests[j].(status := Ended) else st.tests[j]
  }

  lemma EndedStep(st: Store, st2: Store, ids: seq<int>)
    requires |ids| > 0 && EndedExactly(EndTestDb(st, ids[0]), st2, ids[1..])
    ensures EndedExactly(st, st2, ids)
  {
    var st1 := EndTestDb(st, ids[0]);
    assert ids == [ids[0]] + ids[1..];
    forall j | 0 <= j < |st.tests|
      ensures st2.tests[j] == if j + 1 in ids then st.tests[j].(status := Ended) else st.tests[j]
    {
      assert GetTest(st1, j + 1).Some?;
      assert j + 1 in ids <==> j + 1 == ids[0] || j + 1 in ids[1..];
    }
  }

  /**
   * The loop of `check_active_tests`: end each listed test, then read its
   * ranked listing; no submissions means no report. The reports are those of
   * the store before the sweep, since ending a test changes no title, user
   * or submission.
   */
  function EndAll(st: Store, ids: seq<int>, admins: seq<int>, failing: set<(int, int)>): (r: (Store, seq<Report>))
    requires IdsIn(st, ids)
    ensures EndedExactly(st, r.0, ids)
    ensures r.1 == ReportsFor(st, ids, admins, failing)
    decreases |ids|
  {
    if |ids| == 0 then (st, [])
    else
      var st1 := EndTestDb(st, ids[0]);
      var rows := GetTestSubmissions(st1, ids[0]);
      ReportsStep(st, ids, admins, failing);
      var here := if rows == [] then [] else [MakeReport(st1, ids[0], admins, failing)];
      var (st2, rest) := EndAll(st1, ids[1..], admins, failing);
      EndedStep(st, st2, ids);
      (st2, here + rest)
  }

  /** One step of the loop, seen from the store before the sweep. */
  lemma ReportsStep(st: Store, ids: seq<int>, admins: seq<int>, failing: set<(int, int)>)
    requires IdsIn(st, ids) && |ids| > 0
    ensures IdsIn(EndTestDb(st, ids[0]), ids[1..])
    ensures var st1 := EndTestDb(st, ids[0]);
      ReportsFor(st, ids, admins, failing) ==
        (if GetTestSubmissions(st1, ids[0]) == [] then [] else [MakeReport(st1, ids[0], admins, failing)])
        + ReportsFor(st1, ids[1..], admins, failing)
  {
    var st1 := EndTestDb(st, ids[0]);
    TitlesKept(st, ids[0]);
    assert IdsIn(st1, ids[1..]);
    MakeReportIgnoresEnding(st, st1, ids[0], admins, failing);
    ReportsIgnoreEnding(st, st1, ids[1..], admins, failing);
  }

  lemma TitlesKept(st: Store, id: int)
    ensures |EndTestDb(st, id).tests| == |st.tests|
    ensures forall j :: 0 <= j < |st.tests| ==> EndTestDb(st, id).tests[j].title == st.tests[j].title
  {
    var st1 := EndTestDb(st, id);
    forall j | 0 <= j < |st.tests|
      ensures st1.tests[j].title == st.tests[j].title
    {
      assert GetTest(st1, j + 1).Some?;
    }
  }

  lemma MakeReportIgnoresEnding(st: Store, st': Store, id: int, admins: seq<int>, failing: set<(int, int)>)
    requires st'.users == st.users && st'.submissions == st.submissions
    requires 1 <= id <= |st.tests| && |st'.tests| == |st.tests|
    requires st'.tests[id - 1].title == st.tests[id - 1].title
    ensures GetTestSubmissions(st', id) == GetTestSubmissions(st, id)
    ensures MakeReport(st', id, admins, failing) == MakeReport(st, id, admins, failing)
  {
    ListingIgnoresTests(st, st', id);
  }

  /** Reports only read titles, users and submissions, none of which ending a test touches. */
  lemma {:induction false} ReportsIgnoreEnding(st: Store, st': Store, ids: seq<int>, admins: seq<int>, failing: set<(int, int)>)
    requires st'.users == st.users && st'.submissions == st.submissions && |st'.tests| == |st.tests|
    requires forall j :: 0 <= j < |st.tests| ==> st'.tests[j].title == st.tests[j].title
    requires IdsIn(st, ids)
    ensures IdsIn(st', ids)
    ensures ReportsFor(st', ids, admins, failing) == ReportsFor(st, ids, admins, failing)
    decreases |ids|
  {
    if |ids| > 0 {
      MakeReportIgnoresEnding(st, st', ids[0], admins, failing);
      ReportsIgnoreEnding(st, st', ids[1..], admins, failing);
    }
  }

  /** `check_active_tests` at time `now`. */
  function CheckActiveTests(st: Store, now: int, admins: seq<int>, failing: set<(int, int)>): (r: (Store, seq<Report>))
    ensures r.0.users == st.users && r.0.submissions == st.submissions
    ensures forall id :: GetTest(r.0, id).Some? <==> GetTest(st, id).Some?
    ensures forall id :: GetTest(st, id).Some? && Expired(GetTest(st, id).value, now) ==>
      GetTest(r.0, id) == Some(GetTest(st, id).value.(status := Ended))
    ensures forall id :: GetTest(st, id).Some? && !Expired(GetTest(st, id).value, now) ==>
      GetTest(r.0, id) == GetTest(st, id)
    ensures r.1 == ReportsFor(st, ActiveTestsNeedingEnd(st, now), admins, failing)
  {
    var ids := ActiveTestsNeedingEnd(st, now);
    assert IdsIn(st, ids);
    EndAll(st, ids, admins, failing)
  }

  /** Each report is about a test that had expired and has at least one submission, and vice versa. */
  lemma {:induction false} ReportsExactlyForExpiredWithSubmissions(st: Store, ids: seq<int>, admins: seq<int>, failing: set<(int, int)>, id: int)
    requires IdsIn(st, ids)
    ensures (exists rep :: rep in ReportsFor(st, ids, admins, failing) && rep.testId == id) <==>
      id in ids && GetTestSubmissions(st, id) != []
    decreases |ids|
  {
    if |ids| > 0 {
      ReportsExactlyForExpiredWithSubmissions(st, ids[1..], admins, failing, id);
      var reps := ReportsFor(st, ids, admins, failing);
      var rest := ReportsFor(st, ids[1..], admins, failing);
      assert forall rep :: rep in rest ==> rep in reps;
      if id == ids[0] && GetTestSubmissions(st, id) != [] {
        assert reps[0] == MakeReport(st, id, admins, failing);
      }
    }
  }

  lemma SweepReportsIff(st: Store, now: int, admins: seq<int>, failing: set<(int, int)>, id: int)
    ensures (exists rep :: rep in CheckActiveTests(st, now, admins, failing).1 && rep.testId == id) <==>
      GetTest(st, id).Some? && Expired(GetTest(st, id).value, now) && GetTestSubmissions(st, id) != []
  {
    var ids := ActiveTestsNeedingEnd(st, now);
    assert IdsIn(st, ids);
    ReportsExactlyForExpiredWithSubmissions(st, ids, admins, failing, id);
  }

  /** After a sweep no test is left active past its end time. */
  lemma SweepLeavesNothingExpired(st: Store, now: int, admins: seq<int>, failing: set<(int, int)>)
    ensures ActiveTestsNeedingEnd(CheckActiveTests(st, now, admins, failing).0, now) == []
  {
    var ids := ActiveTestsNeedingEnd(st, now);
    assert IdsIn(st, ids);
    NothingExpiredAfter(st, EndAll(st, ids, admins, failing).0, now);
  }

  lemma NothingExpiredAfter(st: Store, st': Store, now: int)
    requires EndedExactly(st, st', ActiveTestsNeedingEnd(st, now))
    ensures ActiveTestsNeedingEnd(st', now) == []
  {
    var ids := ActiveTestsNeedingEnd(st, now);
    forall j | 0 <= j < |st'.tests|
      ensures !Expired(st'.tests[j], now)
    {
      assert GetTest(st, j + 1).Some?;
    }
    NoneExpiredUpTo(st', now, |st'.tests|);
  }

  lemma {:induction false} NoneExpiredUpTo(st: Store, now: int, n: nat)
    requires n <= |st.tests|
    requires forall j :: 0 <= j < |st.tests| ==> !Expired(st.tests[j], now)
    ensures ExpiredUpTo(st, now, n) == []
  {
    if n > 0 {
      NoneExpiredUpTo(st, now, n - 1);
    }
  }

  /** Sweeping twice at the same time ends nothing more and sends nothing more. */
  lemma SweepIdempotent(st: Store, now: int, admins: seq<int>, failing: set<(int, int)>)
    ensures var st' := CheckActiveTests(st, now, admins, failing).0;
      CheckActiveTests(st', now, admins, failing) == (st', [])
  {
    var st' := CheckActiveTests(st, now, admins, failing).0;
    SweepLeavesNothingExpired(st, now, admins, failing);
    var r := CheckActiveTests(st', now, admins, failing);
    assert r.0.tests == st'.tests by {
      forall j | 0 <= j < |st'.tests|
        ensures r.0.tests[j] == st'.tests[j]
      {
        assert GetTest(r.0, j + 1) == GetTest(st', j + 1);
      }
    }
  }

  /** Ending tests keeps the store consistent, so the sweep does too. */
  lemma EndedValid(st: Store, st': Store, ids: seq<int>)
    requires Valid(st) && EndedExactly(st, st', ids)
    ensures Valid(st')
  {
    forall j | 0 <= j < |st'.tests|
      ensures TestConsistent(st'.tests[j])
    {
      assert TestConsistent(st.tests[j]);
    }
  }

  lemma SweepValid(st: Store, now: int, admins: seq<int>, failing: set<(int, int)>)
    requires Valid(st)
    ensures Valid(CheckActiveTests(st, now, admins, failing).0)
  {
    var ids := ActiveTestsNeedingEnd(st, now);
    assert IdsIn(st, ids);
    EndedValid(st, EndAll(st, ids, admins, failing).0, ids);
  }

  /** Every report is attempted once for each administrator, each failure reported on its own. */
  lemma DeliveriesPerAdmin(st: Store, now: int, admins: seq<int>, failing: set<(int, int)>, rep: Report)
    requires rep in CheckActiveTests(st, now, admins, failing).1
    ensures |rep.deliveries| == |admins|
    ensures forall i :: 0 <= i < |admins| ==>
      rep.deliveries[i].adminId == admins[i] && (rep.deliveries[i].delivered <==> (rep.testId, admins[i]) !in failing)
    ensures |rep.top| == if rep.total < 3 then rep.total else 3
  {
    var ids := ActiveTestsNeedingEnd(st, now);
    assert IdsIn(st, ids);
    ReportShape(st, ids, admins, failing, rep);
  }

  lemma {:induction false} ReportShape(st: Store, ids: seq<int>, admins: seq<int>, failing: set<(int, int)>, rep: Report)
    requires IdsIn(st, ids) && rep in ReportsFor(st, ids, admins, failing)
    ensures 1 <= rep.testId <= |st.tests| && rep == MakeReport(st, rep.testId, admins, failing)
    ensures rep.deliveries == Deliver(admins, rep.testId, failing)
    ensures rep.top == TopThree(GetTestSubmissions(st, rep.testId))
    decreases |ids|
  {
    var rest := ReportsFor(st, ids[1..], admins, failing);
    if rep !in rest {
      assert rep == MakeReport(st, ids[0], admins, failing);
    } else {
      ReportShape(st, ids[1..], admins, failing, rep);
    }
  }
}

=== FILE: queries.dfy ===
/**
 * The relational store of db/queries.py as an immutable value. Tests and
 * users are addressed by autoincrement ids (id k is the k-th row; nothing is
 * ever deleted); submissions are kept in arrival order.
 */
module Queries {
  import opened Wrappers
  import opened Sorting

  datatype Status = Draft | Active | Ended

  datatype Test = Test(
    title: string,
    numQuestions: int,
    durationHours: int,
    answerKey: Option<string>,
    status: Status,
    startAt: Option<int>,
    endAt: Option<int>,
    createdAt: int)

  datatype User = User(tgUserId: int, username: Option<string>, fullName: string, region: Option<string>)

  /** One row of `submissions`; `percent` is in hundredths of a percent, times are seconds. */
  datatype Submission = Submission(
    testId: int,
    userId: int,
    rawAnswers: string,
    normalizedAnswers: string,
    correctCount: int,
    wrongCount: int,
    percent: int,
    startedAt: int,
    submittedAt: int,
    timeTakenSeconds: Option<int>)

  datatype Store = Store(users: seq<User>, tests: seq<Test>, submissions: seq<Submission>)

  const EmptyStore := Store([], [], [])

  // ---------------------------------------------------------------------------
  // tests

  /**
   * Whether a Python integer can be bound as a query parameter: SQLite's
   * INTEGER is signed 64-bit, and binding anything wider raises OverflowError.
   */
  predicate FitsSqliteInteger(n: int) {
    -0x8000_0000_0000_0000 <= n <= 0x7fff_ffff_ffff_ffff
  }

  /** `get_test`: the row with this id, if any. */
  function GetTest(st: Store, id: int): (r: Option<Test>)
    ensures r.Some? <==> 1 <= id <= |st.tests|
    ensures r.Some? ==> r.value == st.tests[id - 1]
  {
    if 1 <= id <= |st.tests| then Some(st.tests[id - 1]) else None
  }

  /** Replaces test `id` by `f` of itself; an unknown id changes nothing (an UPDATE matching no row). */
  function UpdateTest(st: Store, id: int, f: Test -> Test): (r: Store)
    ensures r.users == st.users && r.submissions == st.submissions
    ensures |r.tests| == |st.tests|
    ensures forall j :: j != id ==> GetTest(r, j) == GetTest(st, j)
    ensures GetTest(st, id).Some? ==> GetTest(r, id) == Some(f(GetTest(st, id).value))
    ensures GetTest(st, id).None? ==> r == st
  {
    if 1 <= id <= |st.tests| then st.(tests := st.tests[id - 1 := f(st.tests[id - 1])]) else st
  }

  /** `create_test`: a fresh id holding a draft with no key and no window. */
  function CreateTest(st: Store, title: string, numQuestions: int, durationHours: int, now: int): (r: (Store, int))
    ensures GetTest(st, r.1).None? && r.1 >= 1
    ensures GetTest(r.0, r.1) == Some(Test(title, numQuestions, durationHours, None, Draft, None, None, now))
    ensures forall j :: j != r.1 ==> GetTest(r.0, j) == GetTest(st, j)
    ensures r.0.users == st.users && r.0.submissions == st.submissions
  {
    (st.(tests := st.tests + [Test(title, numQuestions, durationHours, None, Draft, None, None, now)]), |st.tests| + 1)
  }

  /** `update_test_answer_key`: only the key of that one test changes, whatever its status. */
  function UpdateTestAnswerKey(st: Store, id: int, key: string): (r: Store)
    ensures forall j :: j != id ==> GetTest(r, j) == GetTest(st, j)
    ensures GetTest(st, id).Some? ==> GetTest(r, id) == Some(GetTest(st, id).value.(answerKey := Some(key)))
    ensures GetTest(st, id).None? ==> r == st
    ensures r.users == st.users && r.submissions == st.submissions
  {
    UpdateTest(st, id, (t: Test) => t.(answerKey := Some(key)))
  }

  /** `start_test_db`: status, start and end change, with no check of the prior status. */
  function StartTestDb(st: Store, id: int, startAt: int, endAt: int): (r: Store)
    ensures forall j :: j != id ==> GetTest(r, j) == GetTest(st, j)
    ensures GetTest(st, id).Some? ==>
      GetTest(r, id) == Some(GetTest(st, id).value.(status := Active, startAt := Some(startAt), endAt := Some(endAt)))
    ensures GetTest(st, id).None? ==> r == st
    ensures r.users == st.users && r.submissions == st.submissions
  {
    UpdateTest(st, id, (t: Test) => t.(status := Active, startAt := Some(startAt), endAt := Some(endAt)))
  }

  /** `end_test_db`: only the status changes, to ended, from whatever it was. */
  function EndTestDb(st: Store, id: int): (r: Store)
    ensures forall j :: j != id ==> GetTest(r, j) == GetTest(st, j)
    ensures GetTest(st, id).Some? ==> GetTest(r, id) == Some(GetTest(st, id).value.(status := Ended))
    ensures GetTest(st, id).None? ==> r == st
    ensures r.users == st.users && r.submissions == st.submissions
  {
    UpdateTest(st, id, (t: Test) => t.(status := Ended))
  }

  /** Ending twice is the same as ending once. */
  lemma EndTestIdempotent(st: Store, id: int)
    ensures EndTestDb(EndTestDb(st, id), id) == EndTestDb(st, id)
  {
    var once := EndTestDb(st, id);
    var twice := EndTestDb(once, id);
    assert twice.tests == once.tests by {
      forall j | 0 <= j < |once.tests|
        ensures twice.tests[j] == once.tests[j]
      {
        assert GetTest(twice, j + 1) == GetTest(once, j + 1);
      }
    }
  }

  /** The expiry condition of the sweep query: active, with an end time at or before `now`. */
  predicate Expired(t: Test, now: int) {
    t.status == Active && t.endAt.Some? && t.endAt.value <= now
  }

  /** Expired tests among ids 1..n, in increasing id order. */
  function ExpiredUpTo(st: Store, now: int, n: nat): (ids: seq<int>)
    requires n <= |st.tests|
    ensures forall id :: id in ids <==> 1 <= id <= n && Expired(st.tests[id - 1], now)
    ensures forall i :: 0 <= i < |ids| ==> 1 <= ids[i] <= n
    ensures forall i, j :: 0 <= i < j < |ids| ==> ids[i] < ids[j]
  {
    if n == 0 then []
    else ExpiredUpTo(st, now, n - 1) + (if Expired(st.tests[n - 1], now) then [n] else [])
  }

  /** `get_active_tests_needing_end`: exactly the active tests with `end_at <= now`, each once. */
  function ActiveTestsNeedingEnd(st: Store, now: int): (ids: seq<int>)
    ensures forall id :: id in ids <==> GetTest(st, id).Some? && Expired(GetTest(st, id).value, now)
    ensures forall i, j :: 0 <= i < j < |ids| ==> ids[i] < ids[j]
  {
    ExpiredUpTo(st, now, |st.tests|)
  }

  function CreatedAt(st: Store, id: int): int {
    if 1 <= id <= |st.tests| then st.tests[id - 1].createdAt else 0
  }

  /** The `ORDER BY created_at DESC` relation on ids. */
  function NewerFirst(st: Store): (int, int) -> bool {
    (a: int, b: int) => CreatedAt(st, a) >= CreatedAt(st, b)
  }

  function IdsUpTo(n: nat): (ids: seq<int>)
    ensures |ids| == n
    ensures forall i :: 0 <= i < n ==> ids[i] == i + 1
  {
    seq(n, i requires 0 <= i < n => i + 1)
  }

  /**
   * `get_all_tests(limit)`: the `limit` most recently created test ids, newest
   * first, each once; no test left out is newer than one listed.
   */
  function GetAllTests(st: Store, limit: nat): (ids: seq<int>)
    ensures |ids| == if limit < |st.tests| then limit else |st.tests|
    ensures forall i :: 0 <= i < |ids| ==> GetTest(st, ids[i]).Some?
    ensures SortedBy(ids, NewerFirst(st))
    ensures Distinct(ids)
    ensures forall id :: GetTest(st, id).Some? && id !in ids ==>
      forall i :: 0 <= i < |ids| ==> CreatedAt(st, ids[i]) >= CreatedAt(st, id)
    ensures limit >= |st.tests| ==> multiset(ids) == multiset(IdsUpTo(|st.tests|))
  {
    var all := IdsUpTo(|st.tests|);
    var sorted := Sort(all, NewerFirst(st));
    SortSorted(all, NewerFirst(st));
    PermutationKeepsDistinct(all, sorted);
    forall i | 0 <= i < |sorted|
      ensures 1 <= sorted[i] <= |st.tests|
    {
      assert sorted[i] in multiset(all);
    }
    var ids := Take(sorted, limit);
    forall id | GetTest(st, id).Some? && id !in ids
      ensures forall i :: 0 <= i < |ids| ==> CreatedAt(st, ids[i]) >= CreatedAt(st, id)
    {
      assert all[id - 1] == id;
      assert id in multiset(sorted);
      TakeKeepsTheFirst(sorted, NewerFirst(st), limit, id);
    }
    ids
  }

  // ---------------------------------------------------------------------------
  // users

  function FindUser(users: seq<User>, tgUserId: int, from: nat): (r: Option<int>)
    requires from <= |users|
    ensures r.Some? ==> from < r.value <= |users| && users[r.value - 1].tgUserId == tgUserId
    ensures r.Some? ==> forall k :: from <= k < r.value - 1 ==> users[k].tgUserId != tgUserId
    ensures r.None? ==> forall k :: from <= k < |users| ==> users[k].tgUserId != tgUserId
    decreases |users| - from
  {
    if from == |users| then None
    else if users[from].tgUserId == tgUserId then Some(from + 1)
    else FindUser(users, tgUserId, from + 1)
  }

  /** `get_user_by_tg_id`: the internal id of the first user row with that messaging-service id. */
  function GetUserByTgId(st: Store, tgUserId: int): (r: Option<int>)
    ensures r.Some? ==> 1 <= r.value <= |st.users| && st.users[r.value - 1].tgUserId == tgUserId
    ensures r.None? <==> forall k :: 0 <= k < |st.users| ==> st.users[k].tgUserId != tgUserId
  {
    FindUser(st.users, tgUserId, 0)
  }

  /**
   * `upsert_user`: a new row for an unseen messaging-service id; otherwise
   * username and full name are overwritten and the region is kept when the
   * new one is absent (`COALESCE`).
   */
  function UpsertUser(st: Store, tgUserId: int, username: Option<string>, fullName: string, region: Option<string>): (r: (Store, int))
    ensures 1 <= r.1 <= |r.0.users| && GetUserByTgId(r.0, tgUserId) == Some(r.1)
    ensures GetUserByTgId(st, tgUserId).None? ==>
      r.0.users == st.users + [User(tgUserId, username, fullName, region)]
    ensures GetUserByTgId(st, tgUserId).Some? ==>
      && GetUserByTgId(st, tgUserId) == Some(r.1)
      && r.0.users == st.users[r.1 - 1 := User(tgUserId, username, fullName,
                                               if region.Some? then region else st.users[r.1 - 1].region)]
    ensures r.0.tests == st.tests && r.0.submissions == st.submissions
  {
    match GetUserByTgId(st, tgUserId)
    case None =>
      var st' := st.(users := st.users + [User(tgUserId, username, fullName, region)]);
      assert GetUserByTgId(st', tgUserId) == Some(|st'.users|) by {
        assert st'.users[|st.users|].tgUserId == tgUserId;
        assert forall k :: 0 <= k < |st.users| ==> st'.users[k] == st.users[k];
      }
      (st', |st'.users|)
    case Some(uid) =>
      var prior := st.users[uid - 1];
      var st' := st.(users := st.users[uid - 1 := User(tgUserId, username, fullName, if region.Some? then region else prior.region)]);
      assert GetUserByTgId(st', tgUserId) == Some(uid) by {
        var found := FindUser(st'.users, tgUserId, 0);
        assert st'.users[uid - 1].tgUserId == tgUserId;
        assert forall k :: 0 <= k < uid - 1 ==> st'.users[k] == st.users[k];
      }
      (st', uid)
  }

  // ---------------------------------------------------------------------------
  // submissions

  /** A row for the pair (test, user) exists. */
  predicate HasSubmission(st: Store, testId: int, userId: int) {
    exists i :: 0 <= i < |st.submissions| && st.submissions[i].testId == testId && st.submissions[i].userId == userId
  }

  function FindSubmission(subs: seq<Submission>, testId: int, userId: int): (r: Option<Submission>)
    ensures r.Some? ==> r.value in subs && r.value.testId == testId && r.value.userId == userId
    ensures r.None? <==> forall i :: 0 <= i < |subs| ==> !(subs[i].testId == testId && subs[i].userId == userId)
  {
    if |subs| == 0 then None
    else if subs[0].testId == testId && subs[0].userId == userId then Some(subs[0])
    else
      var r := FindSubmission(subs[1..], testId, userId);
      assert forall i :: 1 <= i < |subs| ==> subs[i] == subs[1..][i - 1];
      r
  }

  /** `get_submission`: the row for (test, user), if one exists. */
  function GetSubmission(st: Store, testId: int, userId: int): (r: Option<Submission>)
    ensures r.None? <==> !HasSubmission(st, testId, userId)
    ensures r.Some? ==> r.value in st.submissions && r.value.testId == testId && r.value.userId == userId
  {
    FindSubmission(st.submissions, testId, userId)
  }

  /**
   * `create_submission`: the `UNIQUE(test_id, user_id)` insert. A second row
   * for a pair is refused (the IntegrityError) and changes nothing; otherwise
   * exactly the new row is appended.
   */
  function CreateSubmission(st: Store, sub: Submission): (r: (Store, bool))
    ensures r.1 <==> !HasSubmission(st, sub.testId, sub.userId)
    ensures !r.1 ==> r.0 == st
    ensures r.1 ==> r.0 == st.(submissions := st.submissions + [sub])
  {
    if GetSubmission(st, sub.testId, sub.userId).Some? then (st, false)
    else (st.(submissions := st.submissions + [sub]), true)
  }

  // ---------------------------------------------------------------------------
  // ranked listing

  /** A row of `get_test_submissions`: the submission joined with its user's name fields. */
  datatype RankedRow = RankedRow(
    userId: int,
    fullName: string,
    username: Option<string>,
    correctCount: int,
    wrongCount: int,
    percent: int,
    timeTakenSeconds: Option<int>,
    submittedAt: int)

  /** `time_taken_seconds ASC`, where SQLite puts NULL first. */
  predicate TimeNoLater(a: Option<int>, b: Option<int>) {
    a.None? || (b.Some? && a.value <= b.value)
  }

  /** `ORDER BY percent DESC, correct_count DESC, time_taken_seconds ASC`: `a` may precede `b`. */
  predicate RanksAhead(a: RankedRow, b: RankedRow) {
    || a.percent > b.percent
    || (a.percent == b.percent && a.correctCount > b.correctCount)
    || (a.percent == b.percent && a.correctCount == b.correctCount && TimeNoLater(a.timeTakenSeconds, b.timeTakenSeconds))
  }

  /** The ranking relation is total and transitive, so sorting by it is well defined. */
  lemma RanksAheadIsTotalPreorder()
    ensures TotalPreorder(RanksAhead)
  {
  }

  function JoinRow(sub: Submission, user: User): RankedRow {
    RankedRow(sub.userId, user.fullName, user.username, sub.correctCount, sub.wrongCount,
              sub.percent, sub.timeTakenSeconds, sub.submittedAt)
  }

  /** `row` is the join of some submission of `testId` in `subs` with its user. */
  ghost predicate Joinable(row: RankedRow, users: seq<User>, subs: seq<Submission>, testId: int) {
    exists sub :: sub in subs && sub.testId == testId && 1 <= sub.userId <= |users| &&
      row == JoinRow(sub, users[sub.userId - 1])
  }

  /** `sub` survives the join: it is of `testId` and its user row exists. */
  predicate JoinsUser(sub: Submission, users: seq<User>, testId: int) {
    sub.testId == testId && 1 <= sub.userId <= |users|
  }

  /** The `WHERE s.test_id = ?` filter with the join's matching-user condition, in arrival order. */
  function Surviving(users: seq<User>, subs: seq<Submission>, testId: int): (m: seq<Submission>)
    ensures forall i :: 0 <= i < |m| ==> JoinsUser(m[i], users, testId) && m[i] in subs
  {
    if |subs| == 0 then []
    else
      var n := |subs| - 1;
      var front := Surviving(users, subs[..n], testId);
      assert forall i :: 0 <= i < |front| ==> front[i] in subs by {
        forall i | 0 <= i < |front|
          ensures front[i] in subs
        {
          assert front[i] in subs[..n];
        }
      }
      if JoinsUser(subs[n], users, testId) then front + [subs[n]] else front
  }

  /** `Surviving` is the filter of the submissions by `JoinsUser`: each survivor as often as it was submitted. */
  lemma {:induction false} SurvivingCounts(users: seq<User>, subs: seq<Submission>, testId: int, sub: Submission)
    ensures multiset(Surviving(users, subs, testId))[sub]
            == if JoinsUser(sub, users, testId) then multiset(subs)[sub] else 0
  {
    if |subs| > 0 {
      var n := |subs| - 1;
      assert subs == subs[..n] + [subs[n]];
      SurvivingCounts(users, subs[..n], testId, sub);
    }
  }

  /** Each surviving submission joined with its user row. */
  function JoinEach(users: seq<User>, m: seq<Submission>): (rows: seq<RankedRow>)
    requires forall i :: 0 <= i < |m| ==> 1 <= m[i].userId <= |users|
    ensures |rows| == |m|
  {
    if |m| == 0 then []
    else JoinEach(users, m[..|m| - 1]) + [JoinRow(m[|m| - 1], users[m[|m| - 1].userId - 1])]
  }

  /** Row `i` is the join of the `i`-th surviving submission. */
  lemma {:induction false} JoinEachPointwise(users: seq<User>, m: seq<Submission>)
    requires forall i :: 0 <= i < |m| ==> 1 <= m[i].userId <= |users|
    ensures forall i :: 0 <= i < |m| ==> JoinEach(users, m)[i] == JoinRow(m[i], users[m[i].userId - 1])
  {
    if |m| > 0 {
      JoinEachPointwise(users, m[..|m| - 1]);
    }
  }

  /**
   * The inner join of a test's submissions with their users, in arrival
   * order: every row comes from a submission of the test.
   */
  function JoinedRows(users: seq<User>, subs: seq<Submission>, testId: int): (rows: seq<RankedRow>)
    ensures |rows| <= |subs|
    ensures forall row :: row in rows ==> Joinable(row, users, subs, testId)
  {
    var m := Surviving(users, subs, testId);
    JoinEachPointwise(users, m);
    SurvivingNoLonger(users, subs, testId);
    forall row | row in JoinEach(users, m)
      ensures Joinable(row, users, subs, testId)
    {
      var i :| 0 <= i < |m| && JoinEach(users, m)[i] == row;
      assert m[i] in subs;
    }
    JoinEach(users, m)
  }

  lemma {:induction false} SurvivingNoLonger(users: seq<User>, subs: seq<Submission>, testId: int)
    ensures |Surviving(users, subs, testId)| <= |subs|
  {
    if |subs| > 0 {
      SurvivingNoLonger(users, subs[..|subs| - 1], testId);
    }
  }

  /**
   * The converse of `Joinable`, with multiplicities: row `i` of the join is
   * the `i`-th surviving submission joined with its user, and any submission
   * `sub` survives as often as it was submitted when it is of the test and
   * its user exists, and never otherwise.
   */
  lemma JoinedRowsAreSurvivors(users: seq<User>, subs: seq<Submission>, testId: int, sub: Submission)
    ensures var m := Surviving(users, subs, testId);
      && |JoinedRows(users, subs, testId)| == |m|
      && (forall i :: 0 <= i < |m| ==> JoinedRows(users, subs, testId)[i] == JoinRow(m[i], users[m[i].userId - 1]))
      && multiset(m)[sub] == if JoinsUser(sub, users, testId) then multiset(subs)[sub] else 0
  {
    var m := Surviving(users, subs, testId);
    assert JoinedRows(users, subs, testId) == JoinEach(users, m);
    JoinEachPointwise(users, m);
    SurvivingCounts(users, subs, testId, sub);
  }

  /** How many submissions of `testId` the rows hold. */
  function CountFor(subs: seq<Submission>, testId: int): nat {
    if |subs| == 0 then 0
    else CountFor(subs[..|subs| - 1], testId) + (if subs[|subs| - 1].testId == testId then 1 else 0)
  }

  /** With every submission's user present, the join loses no row of the test. */
  lemma {:induction false} JoinKeepsAll(users: seq<User>, subs: seq<Submission>, testId: int)
    requires forall i :: 0 <= i < |subs| ==> 1 <= subs[i].userId <= |users|
    ensures |JoinedRows(users, subs, testId)| == CountFor(subs, testId)
  {
    if |subs| > 0 {
      JoinKeepsAll(users, subs[..|subs| - 1], testId);
    }
  }

  /**
   * `get_test_submissions`: the test's joined rows in ranking order; ties
   * beyond the three keys keep arrival order.
   */
  function GetTestSubmissions(st: Store, testId: int): (rows: seq<RankedRow>)
    ensures SortedBy(rows, RanksAhead)
    ensures multiset(rows) == multiset(JoinedRows(st.users, st.submissions, testId))
  {
    RanksAheadIsTotalPreorder();
    SortSorted(JoinedRows(st.users, st.submissions, testId), RanksAhead);
    Sort(JoinedRows(st.users, st.submissions, testId), RanksAhead)
  }

  /**
   * Rows the three ranking keys cannot tell apart keep their arrival order:
   * for any row `k`, the rows tied with it come out in the order they were
   * submitted.
   */
  lemma TiesKeepArrivalOrder(st: Store, testId: int, k: RankedRow)
    ensures TiedWith(GetTestSubmissions(st, testId), RanksAhead, k)
         == TiedWith(JoinedRows(st.users, st.submissions, testId), RanksAhead, k)
  {
    RanksAheadIsTotalPreorder();
    SortIsStable(JoinedRows(st.users, st.submissions, testId), RanksAhead, k);
  }

  /** Re-ranking the ranked listing leaves it as it is. */
  lemma RerankingIsStable(st: Store, testId: int)
    ensures Sort(GetTestSubmissions(st, testId), RanksAhead) == GetTestSubmissions(st, testId)
  {
    SortKeepsSorted(GetTestSubmissions(st, testId), RanksAhead);
  }

  // ---------------------------------------------------------------------------
  // the store's integrity

  /**
   * What every reachable store satisfies: a key has the test's length; an
   * active test has a non-empty key and a window of `duration_hours`; a draft
   * has no window.
   */
  predicate TestConsistent(t: Test) {
    && (t.answerKey.Some? ==> |t.answerKey.value| == t.numQuestions)
    && (t.status == Active ==>
          && t.answerKey.Some? && |t.answerKey.value| > 0
          && t.startAt.Some? && t.endAt.Some?
          && t.endAt.value == t.startAt.value + 3600 * t.durationHours)
    && (t.status == Draft ==> t.startAt.None? && t.endAt.None?)
  }

  predicate UniqueSubmissions(subs: seq<Submission>) {
    forall i, j :: 0 <= i < j < |subs| ==> !(subs[i].testId == subs[j].testId && subs[i].userId == subs[j].userId)
  }

  predicate Valid(st: Store) {
    && (forall i, j :: 0 <= i < j < |st.users| ==> st.users[i].tgUserId != st.users[j].tgUserId)
    && UniqueSubmissions(st.submissions)
    && (forall i :: 0 <= i < |st.submissions| ==>
          1 <= st.submissions[i].testId <= |st.tests| && 1 <= st.submissions[i].userId <= |st.users|)
    && (forall i :: 0 <= i < |st.tests| ==> TestConsistent(st.tests[i]))
  }

  lemma EmptyStoreValid()
    ensures Valid(EmptyStore)
  {
  }

  /** At most one row per (test, user), however many inserts are tried. */
  lemma CreateSubmissionKeepsUnique(st: Store, sub: Submission)
    requires UniqueSubmissions(st.submissions)
    ensures UniqueSubmissions(CreateSubmission(st, sub).0.submissions)
  {
  }

  lemma CreateTestValid(st: Store, title: string, numQuestions: int, durationHours: int, now: int)
    requires Valid(st)
    ensures Valid(CreateTest(st, title, numQuestions, durationHours, now).0)
  {
    var st' := CreateTest(st, title, numQuestions, durationHours, now).0;
    forall i | 0 <= i < |st'.tests|
      ensures TestConsistent(st'.tests[i])
    {
      assert GetTest(st', i + 1).Some?;
    }
  }

  lemma EndTestValid(st: Store, id: int)
    requires Valid(st)
    ensures Valid(EndTestDb(st, id))
  {
    var st' := EndTestDb(st, id);
    forall i | 0 <= i < |st'.tests|
      ensures TestConsistent(st'.tests[i])
    {
      assert GetTest(st', i + 1).Some?;
      assert GetTest(st, i + 1).Some?;
    }
  }

  lemma UpsertUserValid(st: Store, tgUserId: int, username: Option<string>, fullName: string, region: Option<string>)
    requires Valid(st)
    ensures Valid(UpsertUser(st, tgUserId, username, fullName, region).0)
  {
  }
}

=== FILE: sorting.dfy ===
/**
 * A stable insertion sort over an arbitrary "comes no later than" relation.
 * It stands for the `ORDER BY` clauses of the store's listing queries.
 */
module Sorting {

  /** Every earlier element comes no later than every later one. */
  predicate SortedBy<T>(s: seq<T>, le: (T, T) -> bool) {
    forall i, j :: 0 <= i < j < |s| ==> le(s[i], s[j])
  }

  /** `le` relates every pair in some direction and is transitive. */
  ghost predicate TotalPreorder<T(!new)>(le: (T, T) -> bool) {
    && (forall a, b :: le(a, b) || le(b, a))
    && (forall a, b, c :: le(a, b) && le(b, c) ==> le(a, c))
  }

  /** Places `x` before the first element it comes no later than. */
  function Insert<T>(x: T, s: seq<T>, le: (T, T) -> bool): (r: seq<T>)
    ensures |r| == |s| + 1
    ensures multiset(r) == multiset(s) + multiset{x}
  {
    if |s| == 0 then [x]
    else if le(x, s[0]) then [x] + s
    else
      assert s == [s[0]] + s[1..];
      [s[0]] + Insert(x, s[1..], le)
  }

  function Sort<T>(s: seq<T>, le: (T, T) -> bool): (r: seq<T>)
    ensures |r| == |s|
    ensures multiset(r) == multiset(s)
  {
    if |s| == 0 then []
    else
      assert s == [s[0]] + s[1..];
      Insert(s[0], Sort(s[1..], le), le)
  }

  lemma {:induction false} InsertSorted<T(!new)>(x: T, s: seq<T>, le: (T, T) -> bool)
    requires TotalPreorder(le)
    requires SortedBy(s, le)
    ensures SortedBy(Insert(x, s, le), le)
  {
    if |s| > 0 && !le(x, s[0]) {
      var tail := Insert(x, s[1..], le);
      InsertSorted(x, s[1..], le);
      forall k | 0 <= k < |tail|
        ensures le(s[0], tail[k])
      {
        assert tail[k] in multiset(tail);
        assert tail[k] == x || tail[k] in multiset(s[1..]);
        if tail[k] != x {
          var j :| 0 <= j < |s[1..]| && s[1..][j] == tail[k];
          assert s[j + 1] == tail[k];
        }
      }
    }
  }

  /** The sort's output is ordered by `le`. */
  lemma {:induction false} SortSorted<T(!new)>(s: seq<T>, le: (T, T) -> bool)
    requires TotalPreorder(le)
    ensures SortedBy(Sort(s, le), le)
  {
    if |s| > 0 {
      SortSorted(s[1..], le);
      InsertSorted(s[0], Sort(s[1..], le), le);
    }
  }

  /** `a` and `b` tie: each comes no later than the other. */
  predicate Tied<T>(le: (T, T) -> bool, a: T, b: T) {
    le(a, b) && le(b, a)
  }

  /** The elements of `s` that tie with `k`, in their order in `s`. */
  function TiedWith<T>(s: seq<T>, le: (T, T) -> bool, k: T): (r: seq<T>)
    ensures |r| <= |s|
    ensures forall i :: 0 <= i < |r| ==> Tied(le, r[i], k)
  {
    if |s| == 0 then []
    else (if Tied(le, s[0], k) then [s[0]] else []) + TiedWith(s[1..], le, k)
  }

  /** Inserting `x` puts it ahead of every element it ties with. */
  lemma {:induction false} InsertKeepsTies<T(!new)>(x: T, s: seq<T>, le: (T, T) -> bool, k: T)
    requires TotalPreorder(le)
    ensures TiedWith(Insert(x, s, le), le, k) == (if Tied(le, x, k) then [x] else []) + TiedWith(s, le, k)
  {
    if |s| == 0 {
      assert Insert(x, s, le) == [x];
      assert [x][1..] == [];
    } else if le(x, s[0]) {
      assert ([x] + s)[1..] == s;
    } else {
      InsertKeepsTies(x, s[1..], le, k);
      assert ([s[0]] + Insert(x, s[1..], le))[1..] == Insert(x, s[1..], le);
      assert Tied(le, x, k) ==> !Tied(le, s[0], k);
    }
  }

  /** The sort is stable: elements that tie keep their relative order. */
  lemma {:induction false} SortIsStable<T(!new)>(s: seq<T>, le: (T, T) -> bool, k: T)
    requires TotalPreorder(le)
    ensures TiedWith(Sort(s, le), le, k) == TiedWith(s, le, k)
  {
    if |s| > 0 {
      SortIsStable(s[1..], le, k);
      InsertKeepsTies(s[0], Sort(s[1..], le), le, k);
    }
  }

  /** No element occurs twice. */
  predicate Distinct<T(==)>(s: seq<T>) {
    forall i, j :: 0 <= i < j < |s| ==> s[i] != s[j]
  }

  lemma {:induction false} DistinctCountsOne<T>(s: seq<T>)
    requires Distinct(s)
    ensures forall x :: multiset(s)[x] <= 1
  {
    if |s| > 0 {
      assert s == [s[0]] + s[1..];
      assert Distinct(s[1..]) by {
        forall i, j | 0 <= i < j < |s[1..]|
          ensures s[1..][i] != s[1..][j]
        {
          assert s[1..][i] == s[i + 1] && s[1..][j] == s[j + 1];
        }
      }
      DistinctCountsOne(s[1..]);
      forall j | 0 <= j < |s[1..]|
        ensures s[1..][j] != s[0]
      {
        assert s[1..][j] == s[j + 1];
      }
    }
  }

  lemma CountsOneDistinct<T>(s: seq<T>)
    requires forall x :: multiset(s)[x] <= 1
    ensures Distinct(s)
  {
    forall i, j | 0 <= i < j < |s|
      ensures s[i] != s[j]
    {
      assert s == s[..j] + s[j..];
      assert s[i] in multiset(s[..j]);
      assert s[j] in multiset(s[j..]);
      assert multiset(s)[s[i]] == multiset(s[..j])[s[i]] + multiset(s[j..])[s[i]];
      assert multiset(s)[s[i]] <= 1;
    }
  }

  /** A rearrangement of a list without repeats has no repeats. */
  lemma PermutationKeepsDistinct<T>(s: seq<T>, t: seq<T>)
    requires Distinct(s) && multiset(s) == multiset(t)
    ensures Distinct(t)
  {
    DistinctCountsOne(s);
    CountsOneDistinct(t);
  }

  /** Cutting a sorted list short leaves out nothing that comes before what it keeps. */
  lemma TakeKeepsTheFirst<T>(s: seq<T>, le: (T, T) -> bool, n: nat, x: T)
    requires SortedBy(s, le) && x in s && x !in Take(s, n)
    ensures forall i :: 0 <= i < |Take(s, n)| ==> le(Take(s, n)[i], x)
  {
    var k :| 0 <= k < |s| && s[k] == x;
    var r := Take(s, n);
    assert forall j :: 0 <= j < |r| ==> r[j] != x;
    assert k >= |r|;
  }

  /** A list already in order is left exactly as it is. */
  lemma {:induction false} SortKeepsSorted<T>(s: seq<T>, le: (T, T) -> bool)
    requires SortedBy(s, le)
    ensures Sort(s, le) == s
  {
    if |s| > 0 {
      SortKeepsSorted(s[1..], le);
      assert s == [s[0]] + s[1..];
      if |s| > 1 {
        assert le(s[0], s[1]);
      }
    }
  }

  /** Re-ranking an already ranked list changes nothing. */
  lemma SortIdempotent<T(!new)>(s: seq<T>, le: (T, T) -> bool)
    requires TotalPreorder(le)
    ensures Sort(Sort(s, le), le) == Sort(s, le)
  {
    SortSorted(s, le);
    SortKeepsSorted(Sort(s, le), le);
  }

  /** The first `n` elements, or all of them when there are fewer. */
  function Take<T>(s: seq<T>, n: nat): (r: seq<T>)
    ensures |r| == if n < |s| then n else |s|
    ensures forall i :: 0 <= i < |r| ==> r[i] == s[i]
  {
    if n < |s| then s[..n] else s
  }
}

=== FILE: text.dfy ===
/**
 * Character classes and string helpers with Python's meaning, restricted to
 * ASCII: `str.isspace`, `str.isdigit`, `str.isalpha`, `str.upper`,
 * `str.strip`, `str.split` and the built-in `int` conversion.
 */
module Text {
  import opened Wrappers

  /** `str.isspace` on one ASCII character: TAB..CR, the four separators 0x1C..0x1F, and SPACE. */
  predicate IsSpace(c: char) {
    (9 <= c as int <= 13) || (28 <= c as int <= 32)
  }

  predicate IsDigit(c: char) {
    '0' <= c <= '9'
  }

  predicate IsUpperLetter(c: char) {
    'A' <= c <= 'Z'
  }

  predicate IsAlpha(c: char) {
    IsUpperLetter(c) || 'a' <= c <= 'z'
  }

  /** `str.upper` on one ASCII character. */
  function Upper(c: char): (u: char)
    ensures IsAlpha(c) <==> IsUpperLetter(u)
    ensures IsDigit(c) <==> IsDigit(u)
    ensures !('a' <= c <= 'z') ==> u == c
    ensures !('a' <= u <= 'z')
  {
    if 'a' <= c <= 'z' then (c as int - 32) as char else c
  }

  function UpperAll(s: string): (r: string)
    ensures |r| == |s|
    ensures forall i :: 0 <= i < |s| ==> r[i] == Upper(s[i])
  {
    seq(|s|, i requires 0 <= i < |s| => Upper(s[i]))
  }

  // ---------------------------------------------------------------------------
  // strip

  /** Removes the longest all-whitespace prefix. */
  function LStrip(s: string): (r: string)
    ensures |r| <= |s| && r == s[|s| - |r|..]
    ensures forall i :: 0 <= i < |s| - |r| ==> IsSpace(s[i])
    ensures |r| > 0 ==> !IsSpace(r[0])
  {
    if |s| > 0 && IsSpace(s[0]) then LStrip(s[1..]) else s
  }

  /** Removes the longest all-whitespace suffix. */
  function RStrip(s: string): (r: string)
    ensures |r| <= |s| && r == s[..|r|]
    ensures forall i :: |r| <= i < |s| ==> IsSpace(s[i])
    ensures |r| > 0 ==> !IsSpace(r[|r| - 1])
  {
    if |s| > 0 && IsSpace(s[|s| - 1]) then RStrip(s[..|s| - 1]) else s
  }

  function Strip(s: string): string {
    RStrip(LStrip(s))
  }

  /** A string with no surrounding whitespace is its own strip. */
  lemma StripUnpadded(s: string)
    requires |s| > 0 ==> !IsSpace(s[0]) && !IsSpace(s[|s| - 1])
    ensures Strip(s) == s
  {
  }

  // ---------------------------------------------------------------------------
  // split and join

  /** `s.split(sep)`: the pieces between separators, empty pieces included. */
  function SplitOn(s: string, sep: char): (r: seq<string>)
    ensures |r| >= 1
    ensures forall i :: 0 <= i < |r| ==> sep !in r[i]
  {
    if |s| == 0 then [""]
    else
      var rest := SplitOn(s[1..], sep);
      if s[0] == sep then [""] + rest
      else [[s[0]] + rest[0]] + rest[1..]
  }

  /** `sep.join(pieces)`. */
  function JoinOn(pieces: seq<string>, sep: char): string
    requires |pieces| >= 1
  {
    if |pieces| == 1 then pieces[0]
    else pieces[0] + [sep] + JoinOn(pieces[1..], sep)
  }

  /** Splitting and joining again gives back the input. */
  lemma {:induction false} JoinSplit(s: string, sep: char)
    ensures JoinOn(SplitOn(s, sep), sep) == s
  {
    if |s| > 0 {
      JoinSplit(s[1..], sep);
      var rest := SplitOn(s[1..], sep);
      if s[0] != sep {
        if |rest| == 1 {
          assert s == [s[0]] + s[1..];
        } else {
          var tail := rest[1..];
          assert rest == [rest[0]] + tail;
          assert JoinOn(rest, sep) == rest[0] + [sep] + JoinOn(tail, sep);
          var r := [[s[0]] + rest[0]] + tail;
          assert r[1..] == tail;
          assert s == [s[0]] + s[1..];
        }
      } else {
        assert s == [s[0]] + s[1..];
      }
    }
  }

  /** Joining separator-free pieces and splitting again gives back the pieces. */
  lemma {:induction false} SplitJoin(pieces: seq<string>, sep: char)
    requires |pieces| >= 1
    requires forall i :: 0 <= i < |pieces| ==> sep !in pieces[i]
    ensures SplitOn(JoinOn(pieces, sep), sep) == pieces
  {
    if |pieces| == 1 {
      SplitPiece(pieces[0], sep);
    } else {
      SplitJoin(pieces[1..], sep);
      SplitPrefix(pieces[0], JoinOn(pieces[1..], sep), sep);
      assert pieces == [pieces[0]] + pieces[1..];
    }
  }

  lemma {:induction false} SplitPiece(p: string, sep: char)
    requires sep !in p
    ensures SplitOn(p, sep) == [p]
  {
    if |p| > 0 {
      SplitPiece(p[1..], sep);
      assert p == [p[0]] + p[1..];
    }
  }

  lemma {:induction false} SplitPrefix(p: string, t: string, sep: char)
    requires sep !in p
    ensures SplitOn(p + [sep] + t, sep) == [p] + SplitOn(t, sep)
  {
    var s := p + [sep] + t;
    if |p| == 0 {
      assert s[0] == sep && s[1..] == t;
    } else {
      assert s[0] == p[0];
      assert s[1..] == p[1..] + [sep] + t;
      SplitPrefix(p[1..], t, sep);
      assert [p[0]] + p[1..] == p;
    }
  }

  /** `s.split(sep, 1)`: the text before and after the first separator, if there is one. */
  function SplitFirst(s: string, sep: char): (r: Option<(string, string)>)
    ensures r.None? <==> sep !in s
    ensures r.Some? ==> s == r.value.0 + [sep] + r.value.1 && sep !in r.value.0
  {
    if |s| == 0 then None
    else if s[0] == sep then
      assert s == [] + [sep] + s[1..];
      Some(("", s[1..]))
    else
      match SplitFirst(s[1..], sep)
      case None => None
      case Some(parts) =>
        assert s == [s[0]] + s[1..];
        Some(([s[0]] + parts.0, parts.1))
  }

  // ---------------------------------------------------------------------------
  // decimal numbers

  predicate IsDigits(s: string) {
    |s| > 0 && forall i :: 0 <= i < |s| ==> IsDigit(s[i])
  }

  function DigitValue(c: char): nat
    requires IsDigit(c)
  {
    c as int - '0' as int
  }

  function DigitChar(d: nat): (c: char)
    requires d < 10
    ensures IsDigit(c) && DigitValue(c) == d
  {
    ('0' as int + d) as char
  }

  /** The value of a run of decimal digits, leading zeros allowed. */
  function DigitsValue(s: string): nat
    requires forall i :: 0 <= i < |s| ==> IsDigit(s[i])
  {
    if |s| == 0 then 0 else 10 * DigitsValue(s[..|s| - 1]) + DigitValue(s[|s| - 1])
  }

  /** `str(n)` for a natural number: no leading zeros. */
  function DecimalString(n: nat): (r: string)
    ensures IsDigits(r)
    ensures |r| > 1 ==> r[0] != '0'
  {
    if n < 10 then [DigitChar(n)] else DecimalString(n / 10) + [DigitChar(n % 10)]
  }

  /** `str(n)` for any integer. */
  function IntString(n: int): string {
    if n < 0 then "-" + DecimalString(-n) else DecimalString(n)
  }

  /** Reading back the decimal rendering of `n` gives `n`. */
  lemma {:induction false} DecimalRoundTrip(n: nat)
    ensures DigitsValue(DecimalString(n)) == n
  {
    if n >= 10 {
      DecimalRoundTrip(n / 10);
      var s := DecimalString(n);
      assert s[..|s| - 1] == DecimalString(n / 10);
    }
  }

  /**
   * The body accepted by `int()` after the sign: digits, with single
   * underscores allowed between digits.
   */
  predicate IsIntBody(b: string) {
    && |b| > 0
    && IsDigit(b[0])
    && IsDigit(b[|b| - 1])
    && (forall i :: 0 <= i < |b| ==> IsDigit(b[i]) || b[i] == '_')
    && (forall i :: 0 <= i < |b| - 1 ==> b[i] == '_' ==> b[i + 1] != '_')
  }

  function DropUnderscores(b: string): (r: string)
    requires forall i :: 0 <= i < |b| ==> IsDigit(b[i]) || b[i] == '_'
    ensures forall i :: 0 <= i < |r| ==> IsDigit(r[i])
    ensures (forall i :: 0 <= i < |b| ==> IsDigit(b[i])) ==> r == b
  {
    if |b| == 0 then ""
    else if b[|b| - 1] == '_' then DropUnderscores(b[..|b| - 1])
    else DropUnderscores(b[..|b| - 1]) + [b[|b| - 1]]
  }

  /** Stripped text `int()` accepts: an integer body, possibly after one `+` or `-`. */
  predicate IsIntText(s: string) {
    IsIntBody(s) || (|s| > 0 && (s[0] == '+' || s[0] == '-') && IsIntBody(s[1..]))
  }

  /**
   * Python's `int(text)` on ASCII text: surrounding whitespace, an optional
   * sign, then an integer body; `None` stands for the ValueError.
   */
  function ParseInt(text: string): (r: Option<int>)
    ensures r.Some? <==> IsIntText(Strip(text))
    ensures r.Some? ==> exists k :: 0 <= k < |Strip(text)| && IsDigit(Strip(text)[k])
  {
    ParseStripped(Strip(text))
  }

  /** The sign-and-body part of `int()`, on text already stripped. */
  function ParseStripped(s: string): (r: Option<int>)
    ensures r.Some? <==> IsIntText(s)
    ensures r.Some? ==> exists k :: 0 <= k < |s| && IsDigit(s[k])
    ensures IsDigits(s) ==> r == Some(DigitsValue(s))
  {
    if |s| > 0 && (s[0] == '+' || s[0] == '-') then
      var body := s[1..];
      if IsIntBody(body) then
        assert IsDigit(s[1]);
        var v: int := DigitsValue(DropUnderscores(body));
        Some(if s[0] == '-' then -v else v)
      else None
    else if IsIntBody(s) then
      assert IsDigit(s[0]);
      Some(DigitsValue(DropUnderscores(s)))
    else None
  }

  /** `int(str(n))` is `n`: the decimal rendering of a number parses back to it. */
  lemma ParseDecimal(n: nat)
    ensures ParseInt(DecimalString(n)) == Some(n)
  {
    ParseDigits(DecimalString(n));
    DecimalRoundTrip(n);
  }

  /** A plain run of digits parses to its value. */
  lemma ParseDigits(s: string)
    requires IsDigits(s)
    ensures ParseInt(s) == Some(DigitsValue(s))
  {
    assert IsDigit(s[0]) && IsDigit(s[|s| - 1]);
    StripUnpadded(s);
  }

  /** A sign followed by a plain run of digits: `+` is ignored and `-` negates. */
  lemma {:induction false} ParseSigned(s: string)
    requires |s| > 1 && (s[0] == '+' || s[0] == '-')
    requires IsDigits(s[1..])
    ensures ParseStripped(s) == Some(if s[0] == '-' then -(DigitsValue(s[1..]) as int) else DigitsValue(s[1..]))
  {
    assert IsIntBody(s[1..]);
  }

  /** Text with no surrounding whitespace goes to the sign-and-body step unchanged. */
  lemma ParseUnpadded(s: string)
    requires |s| > 0 && !IsSpace(s[0]) && !IsSpace(s[|s| - 1])
    ensures ParseInt(s) == ParseStripped(s)
  {
    StripUnpadded(s);
  }

  /** `int("+5")` is 5. */
  lemma ParsePlusFive()
    ensures ParseInt("+5") == Some(5)
  {
    ParseUnpadded("+5");
    ParseSigned("+5");
    assert "+5"[1..] == "5";
  }

  /** `int("-12")` is -12. */
  lemma ParseMinusTwelve()
    ensures ParseInt("-12") == Some(-12)
  {
    ParseUnpadded("-12");
    ParseSigned("-12");
    assert "-12"[1..] == "12";
    assert "12"[..1] == "1";
  }

  /** Unsigned text: the value of its digits once the underscores are dropped. */
  lemma {:induction false} ParseUnsigned(s: string)
    requires IsIntBody(s)
    ensures ParseStripped(s) == Some(DigitsValue(DropUnderscores(s)))
  {
    assert IsDigit(s[0]);
  }

  /** Dropping underscores works piece by piece: it distributes over concatenation. */
  lemma {:induction false} DropUnderscoresConcat(x: string, y: string)
    requires forall i :: 0 <= i < |x| ==> IsDigit(x[i]) || x[i] == '_'
    requires forall i :: 0 <= i < |y| ==> IsDigit(y[i]) || y[i] == '_'
    ensures DropUnderscores(x + y) == DropUnderscores(x) + DropUnderscores(y)
    decreases |y|
  {
    if |y| == 0 {
      assert x + y == x;
    } else {
      var y' := y[..|y| - 1];
      DropUnderscoresConcat(x, y');
      assert (x + y)[..|x + y| - 1] == x + y';
      assert (x + y)[|x + y| - 1] == y[|y| - 1];
    }
  }

  /** Digits, one underscore, then an integer body is an integer body, and so is the same text without that underscore. */
  lemma UnderscoreBody(a: string, c: string)
    requires IsDigits(a) && IsIntBody(c)
    ensures IsIntBody(a + "_" + c) && IsIntBody(a + c)
  {
    var t := a + "_" + c;
    assert |t| == |a| + 1 + |c|;
    forall i | 0 <= i < |t|
      ensures IsDigit(t[i]) || t[i] == '_'
    {
      if i > |a| { assert t[i] == c[i - |a| - 1]; }
    }
    forall i | 0 <= i < |t| - 1 && t[i] == '_'
      ensures t[i + 1] != '_'
    {
      if i > |a| {
        assert t[i] == c[i - |a| - 1] && t[i + 1] == c[i - |a|];
      } else {
        assert i == |a| && t[i + 1] == c[0];
      }
    }
    var u := a + c;
    forall i | 0 <= i < |u|
      ensures IsDigit(u[i]) || u[i] == '_'
    {
      if i >= |a| { assert u[i] == c[i - |a|]; }
    }
    forall i | 0 <= i < |u| - 1 && u[i] == '_'
      ensures u[i + 1] != '_'
    {
      assert i >= |a| && u[i] == c[i - |a|] && u[i + 1] == c[i - |a| + 1];
    }
  }

  /** Dropping underscores removes the one between `a` and `c`. */
  lemma DropSkipsUnderscore(a: string, c: string)
    requires IsDigits(a) && IsIntBody(c)
    ensures IsIntBody(a + "_" + c) && IsIntBody(a + c)
    ensures DropUnderscores(a + "_" + c) == DropUnderscores(a + c)
  {
    UnderscoreBody(a, c);
    DropUnderscoresConcat(a + "_", c);
    DropUnderscoresConcat(a, "_");
    DropUnderscoresConcat(a, c);
    assert DropUnderscores("_") == "";
  }

  /**
   * An underscore between digits is ignored: `int(a + "_" + c)` equals
   * `int(a + c)`. With `ParseDigits` this fixes the value of every unsigned body.
   */
  lemma ParseIgnoresUnderscore(a: string, c: string)
    requires IsDigits(a) && IsIntBody(c)
    ensures ParseStripped(a + "_" + c).Some?
    ensures ParseStripped(a + "_" + c) == ParseStripped(a + c)
  {
    DropSkipsUnderscore(a, c);
    ParseUnsigned(a + "_" + c);
    ParseUnsigned(a + c);
  }

  /** An underscore between digits is skipped: `int("1_0")` is 10. */
  lemma ParseUnderscore()
    ensures ParseInt("1_0") == Some(10)
  {
    ParseUnpadded("1_0");
    assert IsIntBody("0");
    ParseIgnoresUnderscore("1", "0");
    assert "1" + "_" + "0" == "1_0" && "1" + "0" == "10";
    assert IsDigits("10") && "10"[..1] == "1";
  }

  /** Two underscores in a row make `int()` raise: `int("1__0")` fails. */
  lemma ParseRejectsDoubleUnderscore()
    ensures ParseInt("1__0") == None
  {
    ParseUnpadded("1__0");
    assert "1__0"[1] == '_' && "1__0"[2] == '_';
  }

  /** A trailing letter makes `int()` raise: `int("12a")` fails. */
  lemma ParseRejectsLetter()
    ensures ParseInt("12a") == None
  {
    ParseUnpadded("12a");
  }

  /** Inner whitespace is not stripped and makes `int()` raise: `int("1 2")` fails. */
  lemma ParseRejectsInnerSpace()
    ensures ParseInt("1 2") == None
  {
    ParseUnpadded("1 2");
    assert "1 2"[1] == ' ';
  }

  /** Text with no digit at all never parses as an integer. */
  lemma ParseNeedsDigit(text: string)
    requires forall i :: 0 <= i < |text| ==> !IsDigit(text[i])
    ensures ParseInt(text) == None
  {
    StripKeepsNoDigit(text);
  }

  lemma StripKeepsNoDigit(text: string)
    requires forall i :: 0 <= i < |text| ==> !IsDigit(text[i])
    ensures forall i :: 0 <= i < |Strip(text)| ==> !IsDigit(Strip(text)[i])
  {
    var l := LStrip(text);
    LStripNoDigit(text);
    RStripNoDigit(l);
  }

  lemma LStripNoDigit(text: string)
    requires forall i :: 0 <= i < |text| ==> !IsDigit(text[i])
    ensures forall i :: 0 <= i < |LStrip(text)| ==> !IsDigit(LStrip(text)[i])
  {
    var l := LStrip(text);
    var k := |text| - |l|;
    forall i | 0 <= i < |l|
      ensures !IsDigit(l[i])
    {
      assert l[i] == text[k..][i] == text[k + i];
    }
  }

  lemma RStripNoDigit(text: string)
    requires forall i :: 0 <= i < |text| ==> !IsDigit(text[i])
    ensures forall i :: 0 <= i < |RStrip(text)| ==> !IsDigit(RStrip(text)[i])
  {
    var r := RStrip(text);
    forall i | 0 <= i < |r|
      ensures !IsDigit(r[i])
    {
      assert r[i] == text[..|r|][i] == text[i];
    }
  }

}

=== FILE: user.dfy ===
/**
 * The participant handlers of bot_handlers/user.py: answer submission
 * `<test id>*<answers>` and the region step of registration.
 */
module Participant {
  import opened Wrappers
  import opened Text
  import opened Grader
  import opened Queries
  import opened Common

  const Separator := '*'
  const SkipRegion := "O'tkazib yuborish"

  // ---------------------------------------------------------------------------
  // register_region

  datatype RegisterReply = Registered(userId: int) | RegisterCrashed

  /** The region to store: none for the skip button, the text verbatim otherwise. */
  function RegionChoice(text: string): (r: Option<string>)
    ensures r.None? <==> text == SkipRegion
    ensures r.Some? ==> r.value == text
  {
    if text == SkipRegion then None else Some(text)
  }

  /**
   * `register_region`: upserts the user with the name collected earlier. A
   * skipped region stores nothing new, so a returning user keeps the old one.
   */
  function RegisterRegion(st: Store, tgUserId: int, username: Option<string>, ud: UserData, text: string)
    : (r: (Store, RegisterReply, Next))
    ensures ud.fullName.None? ==> r == (st, RegisterCrashed, Goto(ConversationState.RegisterRegion))
    ensures ud.fullName.Some? ==>
      && r.1.Registered? && r.2 == End
      && GetUserByTgId(r.0, tgUserId) == Some(r.1.userId)
      && 1 <= r.1.userId <= |r.0.users|
      && r.0.users[r.1.userId - 1].fullName == ud.fullName.value
      && r.0.users[r.1.userId - 1].username == username
      && (text != SkipRegion ==> r.0.users[r.1.userId - 1].region == Some(text))
      && (text == SkipRegion && GetUserByTgId(st, tgUserId).None? ==> r.0.users[r.1.userId - 1].region == None)
      && (text == SkipRegion && GetUserByTgId(st, tgUserId).Some? ==>
            GetUserByTgId(st, tgUserId) == Some(r.1.userId) &&
            r.0.users[r.1.userId - 1].region == st.users[r.1.userId - 1].region)
      && r.0.tests == st.tests && r.0.submissions == st.submissions
  {
    match ud.fullName
    case None => (st, RegisterCrashed, Goto(ConversationState.RegisterRegion))
    case Some(name) =>
      var (st', uid) := UpsertUser(st, tgUserId, username, name, RegionChoice(text));
      (st', Registered(uid), End)
  }

  lemma RegisterRegionValid(st: Store, tgUserId: int, username: Option<string>, ud: UserData, text: string)
    requires Valid(st)
    ensures Valid(RegisterRegion(st, tgUserId, username, ud, text).0)
  {
    if ud.fullName.Some? {
      UpsertUserValid(st, tgUserId, username, ud.fullName.value, RegionChoice(text));
    }
  }

  // ---------------------------------------------------------------------------
  // handle_submission

  /** The replies of `handle_submission`, one per exit of the handler. */
  datatype SubmitReply =
    | Ignored                                  // no '*': no reply at all
    | AskToStart                               // unregistered user
    | BadTestId                                // `int(test_id_str)` raised
    | IdOverflow                               // binding the id in `get_test` raised OverflowError
    | TestNotFound(testId: int)
    | NotActive(status: Status)
    | NoKey
    | TimeUp
    | WrongCount(expected: int, found: nat)
    | AlreadySubmitted
    | DatabaseError                            // the insert reported failure
    | Accepted(grade: Grade)

  /** The row stored for an accepted submission: started now, zero seconds taken. */
  function NewSubmission(testId: int, userId: int, raw: string, g: Grade, now: int): (sub: Submission)
    ensures sub.testId == testId && sub.userId == userId && sub.rawAnswers == raw
    ensures sub.normalizedAnswers == NormalizeAnswers(raw)
    ensures sub.correctCount == g.correct && sub.wrongCount == g.wrong && sub.percent == g.percent
    ensures sub.startedAt == now == sub.submittedAt && sub.timeTakenSeconds == Some(0)
  {
    Submission(testId, userId, raw, NormalizeAnswers(raw), g.correct, g.wrong, g.percent, now, now, Some(0))
  }

  /** The replies decided after the sender and the test id are known. */
  predicate TestLevel(reply: SubmitReply) {
    !(reply.Ignored? || reply.AskToStart? || reply.BadTestId? || reply.IdOverflow?)
  }

  /** The test has a non-empty answer key. */
  predicate KeyPresent(t: Test) {
    t.answerKey.Some? && t.answerKey.value != ""
  }

  /** `now` is within the window: at or before `end_at`, or the test has no end time. */
  predicate InTime(t: Test, now: int) {
    t.endAt.Some? ==> now <= t.endAt.value
  }

  /** The checks before the answer count pass: known test, active, key present, in time. */
  predicate OpenFor(st: Store, testId: int, now: int) {
    && GetTest(st, testId).Some?
    && var t := GetTest(st, testId).value;
    && t.status == Active && KeyPresent(t) && InTime(t, now)
  }

  /** Every check on the test and the sender's history passes. */
  predicate Admissible(st: Store, userId: int, testId: int, raw: string, now: int) {
    && OpenFor(st, testId, now)
    && |NormalizeAnswers(raw)| == GetTest(st, testId).value.numQuestions
    && !HasSubmission(st, testId, userId)
  }

  /**
   * The part of `handle_submission` after the sender and the test id are
   * known: the checks in source order (known test, active, key present,
   * `now <= end_at` unless there is no end time, answer count, no earlier
   * submission), the first failing one deciding the reply; then grading and
   * the insert.
   */
  function Admit(st: Store, userId: int, testId: int, raw: string, now: int): (r: (Store, SubmitReply))
    ensures !r.1.Accepted? ==> r.0 == st
    ensures r.1.Accepted? <==> Admissible(st, userId, testId, raw, now)
    ensures r.1.Accepted? ==>
      && r.1.grade == GradeSubmission(NormalizeAnswers(raw), GetTest(st, testId).value.answerKey.value)
      && r.0 == st.(submissions := st.submissions + [NewSubmission(testId, userId, raw, r.1.grade, now)])
    ensures GetTest(st, testId).None? <==> r.1 == TestNotFound(testId)
    ensures r.1.NotActive? <==> GetTest(st, testId).Some? && GetTest(st, testId).value.status != Active
    ensures r.1.NotActive? ==> r.1 == NotActive(GetTest(st, testId).value.status)
    ensures r.1 == NoKey <==>
      && GetTest(st, testId).Some?
      && GetTest(st, testId).value.status == Active
      && !KeyPresent(GetTest(st, testId).value)
    ensures r.1 == TimeUp <==>
      && GetTest(st, testId).Some?
      && var t := GetTest(st, testId).value;
      && t.status == Active && KeyPresent(t) && !InTime(t, now)
    ensures r.1.WrongCount? <==>
      OpenFor(st, testId, now) && |NormalizeAnswers(raw)| != GetTest(st, testId).value.numQuestions
    ensures r.1.WrongCount? ==>
      r.1 == WrongCount(GetTest(st, testId).value.numQuestions, |NormalizeAnswers(raw)|)
    ensures r.1 == AlreadySubmitted <==>
      && OpenFor(st, testId, now)
      && |NormalizeAnswers(raw)| == GetTest(st, testId).value.numQuestions
      && HasSubmission(st, testId, userId)
    ensures r.1 != DatabaseError
    ensures TestLevel(r.1)
  {
    match GetTest(st, testId)
    case None => (st, TestNotFound(testId))
    case Some(test) =>
      if test.status != Active then (st, NotActive(test.status))
      else if test.answerKey.None? || test.answerKey.value == "" then (st, NoKey)
      else if test.endAt.Some? && now > test.endAt.value then (st, TimeUp)
      else
        var normalized := NormalizeAnswers(raw);
        if |normalized| != test.numQuestions then (st, WrongCount(test.numQuestions, |normalized|))
        else if GetSubmission(st, testId, userId).Some? then (st, AlreadySubmitted)
        else
          var g := GradeSubmission(normalized, test.answerKey.value);
          var (st', ok) := CreateSubmission(st, NewSubmission(testId, userId, raw, g, now));
          if ok then (st', Accepted(g)) else (st', DatabaseError)
  }

  /** The message as the handler sees it: `<idText>*<raw>` after stripping. */
  predicate SplitsAs(text: string, idText: string, raw: string) {
    SplitFirst(Strip(text), Separator) == Some((idText, raw))
  }

  /**
   * `handle_submission`: strip, split at the first '*' (no '*' means the
   * message is not a submission and gets no reply), then the sender must be
   * registered, the test id must parse as an integer and that integer must
   * fit SQLite's 64-bit INTEGER before `Admit`.
   */
  function HandleSubmission(st: Store, tgUserId: int, text: string, now: int): (r: (Store, SubmitReply))
    ensures !r.1.Accepted? ==> r.0 == st
    ensures r.1 == Ignored <==> Separator !in Strip(text)
    ensures Separator in Strip(text) && GetUserByTgId(st, tgUserId).None? ==> r.1 == AskToStart
    ensures r.1.Accepted? ==>
      && SplitFirst(Strip(text), Separator).Some?
      && var (idText, raw) := SplitFirst(Strip(text), Separator).value;
      && GetUserByTgId(st, tgUserId).Some? && ParseInt(idText).Some? && FitsSqliteInteger(ParseInt(idText).value)
      && Admissible(st, GetUserByTgId(st, tgUserId).value, ParseInt(idText).value, raw, now)
      && r.0 == st.(submissions := st.submissions +
           [NewSubmission(ParseInt(idText).value, GetUserByTgId(st, tgUserId).value, raw, r.1.grade, now)])
    ensures r.1 == IdOverflow <==>
      && SplitFirst(Strip(text), Separator).Some?
      && GetUserByTgId(st, tgUserId).Some?
      && var idText := SplitFirst(Strip(text), Separator).value.0;
      && ParseInt(idText).Some? && !FitsSqliteInteger(ParseInt(idText).value)
    ensures r.1 != DatabaseError
  {
    match SplitFirst(Strip(text), Separator)
    case None => (st, Ignored)
    case Some((idText, raw)) =>
      match GetUserByTgId(st, tgUserId)
      case None => (st, AskToStart)
      case Some(userId) =>
        match ParseInt(idText)
        case None => (st, BadTestId)
        case Some(testId) =>
          if !FitsSqliteInteger(testId) then (st, IdOverflow) else Admit(st, userId, testId, raw, now)
  }

  // ---------------------------------------------------------------------------
  // properties of the admission decision

  /** Once the message splits and the sender is known, the rest is the test-level decision. */
  lemma SubmissionReachesAdmit(st: Store, tgUserId: int, text: string, now: int, idText: string, raw: string)
    requires SplitsAs(text, idText, raw)
    requires GetUserByTgId(st, tgUserId).Some? && ParseInt(idText).Some?
    requires FitsSqliteInteger(ParseInt(idText).value)
    ensures HandleSubmission(st, tgUserId, text, now) ==
      Admit(st, GetUserByTgId(st, tgUserId).value, ParseInt(idText).value, raw, now)
  {
  }

  /**
   * A test id too wide for SQLite's INTEGER makes the lookup raise: the
   * handler stops with nothing changed, before any test check.
   */
  lemma WideIdRefused(st: Store, tgUserId: int, text: string, now: int, idText: string, raw: string)
    requires SplitsAs(text, idText, raw)
    requires GetUserByTgId(st, tgUserId).Some? && ParseInt(idText).Some?
    requires !FitsSqliteInteger(ParseInt(idText).value)
    ensures HandleSubmission(st, tgUserId, text, now) == (st, IdOverflow)
  {
  }

  /** The bound is signed 64-bit: `2^63 - 1` fits, and any decimal id of `2^63` or more parses but does not fit. */
  lemma SqliteIntegerBound(n: nat)
    ensures FitsSqliteInteger(0x7fff_ffff_ffff_ffff) && !FitsSqliteInteger(0x8000_0000_0000_0000)
    ensures n >= 0x8000_0000_0000_0000 ==> ParseInt(DecimalString(n)) == Some(n) && !FitsSqliteInteger(n)
  {
    ParseDecimal(n);
  }

  /** A test id that is not an integer is refused before the test is looked up. */
  lemma BadIdRefused(st: Store, tgUserId: int, text: string, now: int, idText: string, raw: string)
    requires SplitsAs(text, idText, raw)
    requires GetUserByTgId(st, tgUserId).Some? && ParseInt(idText).None?
    ensures HandleSubmission(st, tgUserId, text, now) == (st, BadTestId)
  {
  }

  /**
   * Acceptance holds exactly when every check passes, and the grade is the
   * `GradeSubmission` of the normalised answers against the stored key.
   */
  lemma AcceptedIff(st: Store, tgUserId: int, text: string, now: int, idText: string, raw: string)
    requires SplitsAs(text, idText, raw)
    ensures HandleSubmission(st, tgUserId, text, now).1.Accepted? <==>
      && GetUserByTgId(st, tgUserId).Some?
      && ParseInt(idText).Some?
      && FitsSqliteInteger(ParseInt(idText).value)
      && Admissible(st, GetUserByTgId(st, tgUserId).value, ParseInt(idText).value, raw, now)
    ensures HandleSubmission(st, tgUserId, text, now).1.Accepted? ==>
      HandleSubmission(st, tgUserId, text, now).1.grade ==
        GradeSubmission(NormalizeAnswers(raw), GetTest(st, ParseInt(idText).value).value.answerKey.value)
  {
  }

  /** A submission at exactly `end_at` is on time; one a second later is too late. */
  lemma WindowBoundary(st: Store, userId: int, testId: int, raw: string)
    requires GetTest(st, testId).Some?
    requires var t := GetTest(st, testId).value;
      t.status == Active && t.answerKey.Some? && t.answerKey.value != "" && t.endAt.Some?
    ensures Admit(st, userId, testId, raw, GetTest(st, testId).value.endAt.value).1 != TimeUp
    ensures Admit(st, userId, testId, raw, GetTest(st, testId).value.endAt.value + 1).1 == TimeUp
  {
  }

  /** A second submission for the same test by the same user is refused and changes nothing. */
  lemma DuplicateRefused(st: Store, userId: int, testId: int, raw: string, now: int)
    requires HasSubmission(st, testId, userId)
    ensures !Admit(st, userId, testId, raw, now).1.Accepted?
    ensures Admit(st, userId, testId, raw, now).0 == st
  {
  }

  /** After an accepted submission, the same pair can never be accepted again. */
  lemma ResubmissionRefused(st: Store, userId: int, testId: int, raw: string, now: int, raw': string, later: int)
    requires Admit(st, userId, testId, raw, now).1.Accepted?
    ensures !Admit(Admit(st, userId, testId, raw, now).0, userId, testId, raw', later).1.Accepted?
  {
    var st' := Admit(st, userId, testId, raw, now).0;
    assert st'.submissions[|st.submissions|].testId == testId;
    assert st'.submissions[|st.submissions|].userId == userId;
    assert HasSubmission(st', testId, userId);
  }

  /**
   * In a consistent store the missing-key refusal cannot happen, an accepted
   * grade accounts for every question (and there is at least one), and the
   * store stays consistent.
   */
  lemma AdmitValid(st: Store, userId: int, testId: int, raw: string, now: int)
    requires Valid(st) && 1 <= userId <= |st.users|
    ensures Admit(st, userId, testId, raw, now).1 != NoKey
    ensures var reply := Admit(st, userId, testId, raw, now).1;
      reply.Accepted? ==> 0 < reply.grade.correct + reply.grade.wrong == GetTest(st, testId).value.numQuestions
    ensures Valid(Admit(st, userId, testId, raw, now).0)
  {
    var (st', reply) := Admit(st, userId, testId, raw, now);
    if GetTest(st, testId).Some? {
      assert TestConsistent(st.tests[testId - 1]);
    }
    if reply.Accepted? {
      var sub := NewSubmission(testId, userId, raw, reply.grade, now);
      CreateSubmissionKeepsUnique(st, sub);
      assert CreateSubmission(st, sub).0 == st';
    }
  }

  lemma HandleSubmissionValid(st: Store, tgUserId: int, text: string, now: int)
    requires Valid(st)
    ensures HandleSubmission(st, tgUserId, text, now).1 != NoKey
    ensures Valid(HandleSubmission(st, tgUserId, text, now).0)
  {
    match SplitFirst(Strip(text), Separator)
    case None =>
    case Some((idText, raw)) =>
      if GetUserByTgId(st, tgUserId).Some? && ParseInt(idText).Some? && FitsSqliteInteger(ParseInt(idText).value) {
        AdmitValid(st, GetUserByTgId(st, tgUserId).value, ParseInt(idText).value, raw, now);
      }
  }
}

=== FILE: wrappers.dfy ===
/** The optional-value datatype used for nullable columns and absent rows. */
module Wrappers {

  datatype Option<+T> = None | Some(value: T) {

    /** Returns the wrapped value, or `default` when there is none. */
    function GetOr(default: T): T {
      match this
      case Some(v) => v
      case None => default
    }
  }
}
